=== FILE: README.md ===
# ticcutils command-line options and string helpers, in Dafny

This project models two parts of the ticcutils C++ library:

- **`CL_Options`**, its command-line option parser. The model covers five stages:
  - it compiles a short specification (`"t:fh"`) and a long one (`"test::,qed,data:"`) into tables;
  - it splits a free-form command string into tokens;
  - it reads the tokens as short-option clusters (`-abc`, `+abc`), long options (`--name`, `--name=value`) or mass arguments;
  - it stores the options it recognised, oldest first;
  - it answers `is_present` / `extract` queries and writes the store back with `toString`.
- **The string helpers of `Unicode.h`**:
  - `join`;
  - the `split` family, both the plain variants and the `_exact` variants, with their piece limit;
  - `utrim` / `ltrim` / `rtrim`;
  - `pad`.

The model also covers `basename` / `dirname`, `isNCName` / `create_NCName` and the `UnicodeHash` interning table.

The implementation file of `CL_Options` (CommandLine.cxx) is not part of this model. Its behaviour is taken from the executable examples in `src/runtest.cxx` wherever they show it. Where they are silent, the model makes a choice, and "## Left out" names each such choice at the head of its line. The decisions are these:

- **Polarity.** A short option introduced by `+` has polarity true; one introduced by `-` has false.
- **Permissive mode.** With no specification at all, every option is accepted, and each takes an optional value.
- **Option values.**
  - An option without argument never takes a value. A long one given as `--name=v` stores `""` (a choice of the model).
  - A required or optional option takes its attached text when that text is non-empty. Otherwise it takes the next token, unless that token is missing or starts with `-` (the dash rule is shown for short options only; for long options it is a choice of the model).
  - When there is no value, a required option is an error and an optional one gets `""`.
- **Long options.** A long option splits at its first `=`.
- **Short clusters.** In a cluster, the first character that takes a value ends the cluster. The rest of the token is that character's attached text. No example has more than one option character in a token, so clusters are a choice of the model.
- **Errors during a parse.** A failing token stops the parse. Everything the earlier tokens stored stays stored.
- **Mass arguments.** These are every word that is not an option, including the bare `-`, `+` and `--` (these three are a choice of the model).
- **The store.**
  - All recognised options sit in one list, in command-line order.
  - A query by character finds short options only (a choice of the model).
  - A query by name finds every option whose name is exactly that name, short ones included, as src/runtest.cxx:328-335 shows.
  - Extraction takes the oldest match, so draining a query reads its values in command-line order.
- **`toString`.**
  - It writes `-c value`, `+c value` or `--name=value`, leaving out the value and its separator when the value is empty (a choice of the model).
  - It separates entries by one blank and leaves out the mass arguments.
  - It writes a short option's polarity as `+` or `-`. The examples only show `-`, so `+` is a choice of the model.
- **Tokenizer.**
  - A double-quoted span is part of one token and loses its quotes. An empty quoted span still makes a token (a choice of the model).
  - A backslash before a double quote yields the quote as text.
  - Any other backslash is kept.
- **Typed queries.** These read an `int` as a stream does:
  - leading white space is skipped;
  - one sign is allowed;
  - at least one digit is needed;
  - the rest is ignored;
  - the value must fit 32 bits.

Character-set arguments are modelled as `set<char>`, because only membership matters. A `UnicodeString` is a `seq<char>` with one character per UTF-16 code unit.

Modules, one per file: `Wrappers`, `UnicodeStrings`, `Trimming`/`TrimLaws`, `Tokenizer`, `Conversion`, `OptionSpec`, `OptionParser`, `ParserLaws`, `ParseRuns`, `OptionStore`, `OptionRender`, `CommandLine`, `FileNames`, `XmlNames`, `UniHash`.

## Model

| member | source | states |
|---|---|---|
| UnicodeStrings.Join | include/ticcutils/Unicode.h:206-216 | the loop that appends each element, preceded by `sep` for all but the first, computes `Joined(vec, sep)` |
| UnicodeStrings.JoinedLength | include/ticcutils/Unicode.h:191-216 | n elements give the elements' total length plus n - 1 separators |
| UnicodeStrings.Find | include/ticcutils/Unicode.h:116-122 | the position found is the first occurrence of the separator; none is found only when none occurs |
| UnicodeStrings.ExactPiecesFree | include/ticcutils/Unicode.h:127-130 | no exact field holds the separator |
| UnicodeStrings.SplitExactAt | include/ticcutils/Unicode.h:127-128 | `split_exact_at` gives at least one field, and no field contains the separator |
| UnicodeStrings.SplitExactAtFirstOf | include/ticcutils/Unicode.h:129-130 | `split_exact_at_first_of` gives at least one field, and no field contains a separator character |
| UnicodeStrings.SepChars | include/ticcutils/Unicode.h:129-130 | the characters at which the exact split ends a field all belong to the separator set |
| UnicodeStrings.ExactFieldsRebuild | include/ticcutils/Unicode.h:129-130 | there is one separator character fewer than fields, and the fields with those characters between them rebuild the input |
| UnicodeStrings.SplitInterleaved | include/ticcutils/Unicode.h:129-130 | conversely, fields free of separator characters, with separator characters between them, split back into exactly those fields and characters |
| UnicodeStrings.SplitAppendSep | include/ticcutils/Unicode.h:129-130 | splitting `a`, a separator character and `b` gives the fields of `a` followed by the fields of `b` |
| UnicodeStrings.ExactFieldCount | include/ticcutils/Unicode.h:129-130 | k separator characters give exactly k + 1 fields, so adjacent separators give empty fields |
| UnicodeStrings.JoinExactFields | include/ticcutils/Unicode.h:129-130 | joining the exact fields with the separator character rebuilds the input |
| UnicodeStrings.SplitJoined | include/ticcutils/Unicode.h:129-130 | splitting a join at its one-character separator gives the elements back when no element holds it |
| UnicodeStrings.JoinExactAtFields | include/ticcutils/Unicode.h:127-128 | joining the `split_exact_at` fields with the pattern rebuilds the input, whatever the pattern |
| UnicodeStrings.SplitExactAtChar | include/ticcutils/Unicode.h:127-130 | a one-character pattern splits exactly like the set holding only that character |
| UnicodeStrings.NonEmpty | include/ticcutils/Unicode.h:116-125 | the fields kept are non-empty fields of the input |
| UnicodeStrings.UnlimitedPieces | include/ticcutils/Unicode.h:116-125 | without a limit, the splitters keep exactly the non-empty exact fields, in order |
| UnicodeStrings.PiecesBound | include/ticcutils/Unicode.h:116-125 | with a positive limit, at most `limit` pieces come out |
| UnicodeStrings.LimitedPieces | include/ticcutils/Unicode.h:116-125 | a limited split agrees with the unlimited one except that, when the limit is reached, its last piece may differ |
| UnicodeStrings.LimitedRemainder | include/ticcutils/Unicode.h:116-125 | when the limit is reached, the last piece is an untouched suffix of the input: the whole input when the limit is 1, otherwise the text right after the separator at `RemainderSep`, and the pieces before it are the pieces of the text before that separator |
| UnicodeStrings.LargeLimitPieces | include/ticcutils/Unicode.h:116-125 | a limit larger than the piece count plus one changes nothing |
| UnicodeStrings.SplitAt | include/ticcutils/Unicode.h:116-119 | `split_at`: at most `limit` pieces; without a limit, the non-empty `split_exact_at` fields |
| UnicodeStrings.SplitAtFirstOf | include/ticcutils/Unicode.h:120-123 | `split_at_first_of`: at most `limit` pieces; without a limit, the non-empty exact fields |
| UnicodeStrings.Split | include/ticcutils/Unicode.h:124-125 | `split`: at most `limit` pieces; without a limit, the non-empty fields of `split_exact` |
| Trimming.LTrim | include/ticcutils/Unicode.h:136 | `ltrim` returns a suffix of its input; every character dropped is in the set, and the result does not start with one |
| Trimming.RTrim | include/ticcutils/Unicode.h:137 | `rtrim` returns a prefix of its input; every character dropped is in the set, and the result does not end with one |
| Trimming.UTrim | include/ticcutils/Unicode.h:135 | `utrim` returns the middle that is left once characters of the set are dropped at both ends |
| Trimming.TrimmedUnique | include/ticcutils/Unicode.h:135 | there is only one way to trim a string at both ends |
| Trimming.Pad | include/ticcutils/Unicode.h:138 | `pad` keeps the string at the right end and fills on the left with `fill` up to `width`; a string that is long enough is unchanged |
| TrimLaws.UTrimAt | include/ticcutils/Unicode.h:135 | any trimming of both ends is `utrim` |
| TrimLaws.UTrimIsLeftThenRight | include/ticcutils/Unicode.h:135-137 | `utrim` equals `rtrim` after `ltrim` |
| TrimLaws.UTrimIsRightThenLeft | include/ticcutils/Unicode.h:135-137 | `utrim` equals `ltrim` after `rtrim` |
| TrimLaws.UTrimIdempotent | include/ticcutils/Unicode.h:135 | trimming twice is trimming once |
| Tokenizer.Tokenize | src/runtest.cxx:277-298 | the scan of the command string, one character at a time, yields `Tokens(line)` |
| Tokenizer.RunAppend | src/runtest.cxx:277-286 | scanning a concatenation is scanning one part after the other |
| Tokenizer.TokensPlain | src/runtest.cxx:268-275 | without double quotes, tokenizing is splitting at white space with empty pieces dropped |
| Tokenizer.TokensJoined | src/runtest.cxx:268-275 | non-empty words without blanks or quotes, joined by blanks, tokenize back into those words |
| Tokenizer.QuotedToken | src/runtest.cxx:277-286 | a quoted span after a plain prefix is one token, quotes removed and inner blanks kept |
| Tokenizer.RunBackslash | src/runtest.cxx:288-298 | a backslash after a word is held pending rather than dropped |
| Tokenizer.EscapedQuote | src/runtest.cxx:288-298 | a backslash before a quote yields the quote as text and joins the words around it |
| Conversion.ParseInt | include/ticcutils/Unicode.h:151-161 | a conversion that succeeds gives a value in the 32-bit range |
| Conversion.ParseShow | src/runtest.cxx:1099-1103 | an int written as text, followed by anything that is not a digit, reads back as the same int |
| Conversion.ParseSkipsSpace | include/ticcutils/Unicode.h:151-161 | leading white space does not change what is read |
| Conversion.ParseNeedsDigits | src/runtest.cxx:205-209 | text that starts with no space, sign or digit (such as "appel") does not convert |
| Conversion.ParseOverflow | include/ticcutils/Unicode.h:151-161 | a number beyond the 32-bit range does not convert |
| Conversion.ParseUnderflow | include/ticcutils/Unicode.h:151-161 | a negative number below the 32-bit range does not convert |
| OptionSpec.ArityOf | src/runtest.cxx:151-158 | 0, 1 and 2 colons give an arity, written back with that many colons; more give none |
| OptionSpec.ShortFrom | src/runtest.cxx:168-170 | every option the short compiler declares is a character other than ':' and ',' |
| OptionSpec.CompileShort | src/runtest.cxx:73-77 | a compiled short table names no ':' or ','; a failure reports the specification string |
| OptionSpec.ShortRoundTrip | src/runtest.cxx:151-158 | writing fresh declarations as a specification, with or without commas, compiles back to those declarations |
| OptionSpec.ShortLeadingColon | src/runtest.cxx:73-77 | a short specification starting with ':' is refused |
| OptionSpec.ShortTooManyColons | src/runtest.cxx:73-77 | three colons after an option character are refused, wherever that character stands in the specification |
| OptionSpec.ShortFromAppend | src/runtest.cxx:151-158 | a short specification is read left to right: its front is read first, and the rest, when it does not start with a colon, is read into the table the front built |
| OptionSpec.ShortRedeclared | src/runtest.cxx:73-77 | declaring the same option twice is accepted only with the same arity |
| OptionSpec.LongDecl | src/runtest.cxx:134-139 | a long field is a non-empty name without ':' followed by its colons |
| OptionSpec.LongFrom | src/runtest.cxx:134-139 | every long name declared is non-empty and holds no ':' or ',' |
| OptionSpec.CompileLong | src/runtest.cxx:101-104 | a compiled long table names no empty name and no ':' or ','; a failure reports the specification string |
| OptionSpec.LongEmptyField | src/runtest.cxx:212-214 | a non-empty long specification with an empty field anywhere is refused |
| OptionSpec.LongEmptyName | src/runtest.cxx:212-214 | an empty long name, from a leading comma, a trailing comma or two commas in a row, is refused |
| OptionSpec.LongRoundTrip | src/runtest.cxx:134-139 | writing fresh long declarations comma-separated compiles back to them |
| OptionParser.ShortArity | src/runtest.cxx:268-275 | in permissive mode every short option exists and has an optional value; otherwise exactly the declared ones exist |
| OptionParser.LongArity | src/runtest.cxx:268-275 | in permissive mode every long option exists and has an optional value; otherwise exactly the declared ones exist |
| OptionParser.TakeValue | src/runtest.cxx:73-85 | a value is missing exactly when a required option has no attached text and the next token is absent or starts with '-'; the next token is taken only then and only if usable |
| OptionParser.Cluster | src/runtest.cxx:151-166 | a cluster only appends short entries of its own polarity that fit the specification, consumes at most one more token, and never fails in permissive mode |
| OptionParser.Long | src/runtest.cxx:302-318 | a long option yields one long entry of polarity false that fits the specification, whose name runs up to the first '=' |
| OptionParser.ExtendsTrans | src/runtest.cxx:182-195 | growing a parse twice is growing it once |
| OptionParser.StepToken | src/runtest.cxx:1286-1289 | a token consumes one or two tokens; only plain words reach the mass list; only the debug switch sets debug; stored options fit the specification |
| OptionParser.ParseFrom | src/runtest.cxx:73-85 | a parse only appends options that fit the specification and mass arguments, and never fails in permissive mode |
| ParserLaws.MassInOrder | src/runtest.cxx:252-266 | the mass arguments added are tokens of the command line, in command-line order |
| ParserLaws.MassIsPlain | src/runtest.cxx:320-338 | no mass argument looks like an option |
| ParseRuns.PlainOnly | src/runtest.cxx:252-266 | a run of words that are not options appends them, in order, to the mass arguments; the entries and the debug switch stay as they were and nothing fails |
| ParseRuns.DebugParse | src/runtest.cxx:1286-1289 | debugging is on after a parse only if it was on before or "--SetCommandLineDebug" was among the tokens; a parse that reads all its tokens turns it on when the switch is among them, so the switch is never taken as an option's value |
| ParseRuns.DebugNotMass | src/runtest.cxx:1286-1289 | "--SetCommandLineDebug" is never stored as a mass argument |
| ParseRuns.ErrorPrefix | src/runtest.cxx:73-85 | a parse fails exactly when it stops before the end; what it keeps is what a successful parse of the tokens before the failing token stores, and that token, read in that state, gives the error |
| ParserLaws.ClusterSkip | src/runtest.cxx:182-195 | options without argument in a cluster are stored one by one with the cluster's polarity |
| ParserLaws.ShortFlags | src/runtest.cxx:383-406 | a cluster of options without argument stores one entry per character, in order, with value "" |
| ParserLaws.ShortUnknown | src/runtest.cxx:80-82 | an undeclared character fails the whole token with that character as the unknown option |
| ParserLaws.ShortValue | src/runtest.cxx:182-210 | after leading options without argument, an option with a value takes the rest of the token if non-empty; else the next token if it does not start with '-'; else it is an error if required, and "" if optional |
| ParserLaws.LongSplit | src/runtest.cxx:302-318 | a long token's name ends at the first '=' and its attached text follows it |
| ParserLaws.LongUnknown | src/runtest.cxx:101-109 | an undeclared long option fails with its name |
| ParserLaws.LongValue | src/runtest.cxx:340-359 | a long option without argument stores "" and leaves the next token alone; otherwise non-empty text after '=' is the value; else the next token if it does not start with '-'; else it is an error if required, and "" if optional |
| OptionStore.FirstMatch | src/runtest.cxx:111-121 | the oldest entry the query finds; nothing only when no entry matches |
| OptionStore.Remove | src/runtest.cxx:182-210 | extraction with nothing to find leaves the store as it is |
| OptionStore.RemoveFirst | src/runtest.cxx:182-210 | extraction removes exactly the oldest matching entry |
| OptionStore.DrainOrder | src/runtest.cxx:212-240 | extraction yields the oldest value and the rest stay in order, so draining reads the values in command-line order and stops when none is left |
| OptionStore.RemoveKeepsOthers | src/runtest.cxx:252-266 | extraction leaves every entry the query does not find |
| OptionStore.NameIsExact | src/runtest.cxx:228-232 | a name query finds something exactly when some entry has precisely that name |
| OptionStore.IntValue | src/runtest.cxx:205-209 | a stored value converts to an int exactly when the stream reading succeeds; otherwise the error names the value |
| OptionRender.EntryWords | src/runtest.cxx:268-275 | each entry is written as one or two words |
| OptionRender.RenderWords | src/runtest.cxx:268-275 | the rendered text is all the entries' words joined by blanks |
| OptionRender.WordsAreWords | src/runtest.cxx:268-275 | the words of faithful entries are non-empty and hold no blank or quote |
| OptionRender.ParseEntry | src/runtest.cxx:268-275 | the words of a faithful entry are read back as that entry alone |
| OptionRender.ParseWords | src/runtest.cxx:268-286 | the words of faithful entries are read back as those entries, in order, with no mass argument and no error |
| OptionRender.RenderRoundTrip | src/runtest.cxx:268-286 | parsing what `toString` writes gives back the stored entries, in order |
| CommandLine.CLOptions.constructor | src/runtest.cxx:268-270 | a new object has no specification, which makes it permissive, and an empty store |
| CommandLine.CLOptions.AllowArgs | src/runtest.cxx:73-77 | both specifications are compiled and registered; a bad one is an error that leaves the object unchanged |
| CommandLine.CLOptions.AddShortOptions | src/runtest.cxx:1282 | registers the short specification and keeps the long one |
| CommandLine.CLOptions.AddLongOptions | src/runtest.cxx:1283 | registers the long specification and keeps the short one |
| CommandLine.CLOptions.GetShortOptions | src/runtest.cxx:151-156 | returns the registered short string verbatim, and it compiles to the table in use |
| CommandLine.CLOptions.GetLongOptions | src/runtest.cxx:134-139 | returns the registered long string verbatim, and it compiles to the table in use |
| CommandLine.CLOptions.ParseTokens | src/runtest.cxx:73-85 | the token loop leaves the store, mass list, debug flag and error as `Parse` gives them, and keeps the specification valid |
| CommandLine.CLOptions.ParseArgs | src/runtest.cxx:268-298 | `parse_args` is `Parse` of the tokens of the line |
| CommandLine.CLOptions.IsPresent | src/runtest.cxx:383-406 | finds the oldest matching entry's value and polarity, leaving the store alone |
| CommandLine.CLOptions.Extract | src/runtest.cxx:182-210 | as `IsPresent`, and the store loses exactly that entry |
| CommandLine.CLOptions.IsPresentInt | src/runtest.cxx:134-149 | nothing when nothing matches; otherwise the converted oldest value or the conversion error |
| CommandLine.CLOptions.ExtractInt | src/runtest.cxx:205-209 | as `IsPresentInt`, and the entry leaves the store even when conversion fails |
| CommandLine.CLOptions.GetMassOpts | src/runtest.cxx:252-266 | the mass arguments as collected |
| CommandLine.CLOptions.ToString | src/runtest.cxx:268-275 | the loop writes `Render(entries)`: the entries in order, separated by one blank |
| FileNames.LastSlash | src/runtest.cxx:666-677 | the last '/' of the path; none only when there is none |
| FileNames.Basename | src/runtest.cxx:666-677 | the base name holds no '/', and is the path itself when there is no '/' |
| FileNames.Dirname | src/runtest.cxx:666-677 | "." when there is no '/'; otherwise the part before the last '/' |
| FileNames.SplitPath | src/runtest.cxx:666-677 | a path with a '/' is its directory, '/', and its base name |
| FileNames.JoinPath | src/runtest.cxx:666-677 | a directory and a name without '/', joined by '/', split back into the two |
| XmlNames.FromStart | src/runtest.cxx:1264-1272 | the part of the input from its first name-start character, and empty only when there is none |
| XmlNames.Clean | src/runtest.cxx:1268-1271 | one character at a time: a blank becomes '_', a name character is kept, any other character is dropped; every character of the result is a name character |
| XmlNames.CleanAppend | src/runtest.cxx:1268-1271 | cleaning a concatenation cleans each part, so with the one-character case it fixes the cleaned text of every input |
| XmlNames.CreateNCName | src/runtest.cxx:1267-1271 | the result is an NCName, empty exactly when the input has no letter or '_', and otherwise starting with the input's first letter or '_' |
| XmlNames.CreateAt | src/runtest.cxx:1267-1271 | the result is the input's first letter or '_' followed by the cleaned text after it |
| XmlNames.SkipLead | src/runtest.cxx:1267 | characters that cannot start a name, in front of the input, change nothing, as with "12?name" giving "name" |
| XmlNames.DropInside | src/runtest.cxx:1268-1270 | after the start, a character that is neither a name character nor a blank is dropped, as the '!' and '#' of "aap!noot" and "A#12!3" are |
| XmlNames.BlankInside | src/runtest.cxx:1271 | after the start, a blank counts as '_', as in "_appel-taart.met slagroom_" |
| XmlNames.IsNCNameExamples | src/runtest.cxx:1265-1266 | "123" is no NCName and "_123" is one |
| XmlNames.CleanKeeps | src/runtest.cxx:1264-1272 | a string of name characters is kept as it is |
| XmlNames.NCNameKept | src/runtest.cxx:1264-1272 | an NCName is left unchanged |
| XmlNames.CreateIdempotent | src/runtest.cxx:1264-1272 | making a name twice is making it once |
| UniHash.UnicodeHash.constructor | src/runtest.cxx:646 | a new table is empty |
| UniHash.UnicodeHash.Hash | src/runtest.cxx:647-654 | a new key gets the next number, starting at 1; a known key gets its number back |
| UniHash.UnicodeHash.NumOfEntries | src/runtest.cxx:662 | counts the keys, one per number |
| UniHash.UnicodeHash.ReverseLookup | src/runtest.cxx:663 | the key with that number, or "" when no key has it |
| UniHash.CountDistinct | src/runtest.cxx:662 | keys numbered 1 to n are n distinct keys |

## Left out

- The ICU wrappers are left out because they are calls into a library whose code is not part of this model. They are:
  - normalisation;
  - transliteration and diacritic filtering;
  - case conversion;
  - regular expressions;
  - UTF-8 conversion;
  - `format_non_printable`.
- `UnicodeHash` normalises its keys before numbering them. The model numbers keys as given.
- `stringTo` / `toUnicodeString` are left out beyond the `int` reading in `Conversion`. The `double` typed queries (src/runtest.cxx:233-238) are left out because they are floating point.
- `init(argc, argv)` reads the real process arguments and is left out. `set_debug` and the diagnostic output are left out too. The debug switch is only recorded in the model.
- `init(string)` is used like `parse_args` (src/runtest.cxx:82) and is modelled by `ParseArgs`.
- The two-string constructor `CL_Options(short, long)` is modelled as the constructor followed by `AllowArgs`. The constructor cannot report an error.
- The tests do not show what `add_short_options` and `add_long_options` do to an earlier registration. CommandLine.CLOptions.AddShortOptions and CommandLine.CLOptions.AddLongOptions replace it.
- The tests do not show what a failed `parse_args` leaves stored. CommandLine.CLOptions.ParseArgs keeps what the tokens before the failing one stored.
- CommandLine.CLOptions.IsPresent: when nothing is found, the model returns "" and false. The source reports absence through its boolean result instead.
- CommandLine.CLOptions.ExtractInt: the tests do not show whether the entry stays when its conversion fails. The model removes it.
- UnicodeStrings.LargeLimitPieces: requires a limit above the piece count plus one. At exactly the count plus one, a remainder of separators only is kept as the last piece: `SplitAt("a,b,,", ",", 3)` is `["a", "b", ","]`, while the split without a limit gives `["a", "b"]`.
- OptionParser.TakeValue: three cases are choices of the model that no example shows. A required long option followed by a token starting with '-' reports a missing argument, as a required short one does at src/runtest.cxx:80; the long examples at src/runtest.cxx:308 and 346 only show a plain next token being taken. An option without argument given as `--name=v` stores `""`. An optional long option given as `--name=` followed by a word takes that word, as a required one does in src/runtest.cxx:341-358.
- CommandLine.CLOptions.AllowArgs: no example shows what a refused specification leaves behind. The model keeps the earlier registration and the store unchanged.
- UniHash.UnicodeHash.ReverseLookup: no example looks up a number that no key has. The model returns `""`.
- The `split` piece limit is a `nat`. A negative limit given to the unsigned parameter becomes a very large one, which UnicodeStrings.LargeLimitPieces covers.
- An empty `split_at` pattern is taken to occur nowhere. The tests do not show that case.
- OptionRender.RenderRoundTrip holds for faithful entries only. A short option's value that starts with '-' does not come back, as src/runtest.cxx:277-286 shows.
- XmlNames treats only ASCII letters as letters; other Unicode letters are left out.
- `create_NCName` and leading blanks: the tests do not show whether a leading blank becomes '_' or is dropped. XmlNames.CreateNCName drops it with the other characters before the first letter or '_'.
- OptionStore.Matches: two cases are choices of the model that no example shows. A character query never finds a long option whose name is that one character. When a short and a long entry share a name, a name query returns the older of the two; src/runtest.cxx:258-261 removes the short one before its name query, so it does not settle this.
- OptionParser.Cluster: no `parse_args` example has a token with more than one option character, such as `-qf` or `-qp5`. The model reads such a cluster character by character: options without argument are stored one by one, and the first option that takes a value ends the cluster with the rest of the token as its attached text.
- OptionParser.StepToken: no example has a bare `-`, `+` or `--` token. The model stores each of them as a mass argument.
- OptionRender.EntryWords: every entry rendered at src/runtest.cxx:272, 283 and 294 has a non-empty value written with `-`. Two things are choices of the model: an empty value is written without its separator, and a short option of polarity true is written with `+`.
- Tokenizer.Tokens: an empty quoted span still makes a token, so `-x ""` gives `["-x", ""]`, and that empty token is then a required option's value. No example shows this.
- XmlNames.Clean: its own contract gives the one-character case only; the whole cleaned text follows from it with XmlNames.CleanAppend.
- XmlNames.CreateNCName: its own contract gives the shape and the first character of the result; the whole result is stated by XmlNames.CreateAt.
- Tokenizer.EscapedQuote: the tests show no backslash before a quote. The model takes that backslash as escaping the quote.
- The file, compression, configuration, logging, timing and JSON facilities are I/O and are left out. So are the unit-test macros, the enum flags and the template checks.

=== FILE: CommandLine.dfy ===
/** The CL_Options object: the option specification it was given, the
    options it has read (one store, in command-line order), the mass
    arguments and the debug switch. Reading a command line appends to the
    store; `extract` takes the oldest matching entry out of it. */
module CommandLine {
  import opened Wrappers
  import opened UnicodeStrings
  import opened OptionSpec
  import opened OptionParser
  import opened ParserLaws
  import opened OptionStore
  import opened OptionRender
  import opened Tokenizer

  class CLOptions {
    /** The specification strings as registered. */
    var shortText: string
    var longText: string
    /** Their compiled tables. */
    var spec: Spec
    /** The recognised options, oldest first. */
    var entries: seq<Entry>
    /** The mass arguments, in command-line order. */
    var mass: seq<string>
    /** Set by "--SetCommandLineDebug". */
    var debug: bool

    /** The tables are the compilation of the registered strings. */
    ghost predicate Valid()
      reads this`shortText, this`longText, this`spec
    {
      CompileShort(shortText) == Success(spec.short) && CompileLong(longText) == Success(spec.long)
    }

    /** What has been read so far. */
    function State(): Parsed
      reads this
    {
      Parsed(entries, mass, debug)
    }

    /** An object without specification: it accepts every option. */
    constructor ()
      ensures Valid() && Permissive(spec)
      ensures shortText == "" && longText == ""
      ensures entries == [] && mass == [] && !debug
    {
      shortText, longText := "", "";
      spec := Spec(map[], map[]);
      entries, mass, debug := [], [], false;
    }

    /** `allow_args(short, long)`: registers both specifications. A string
        that does not compile is an error, and leaves the object as it
        was. */
    method AllowArgs(short: string, long: string) returns (err: Option<OptionError>)
      requires Valid()
      modifies this
      ensures Valid()
      ensures err.None? <==> CompileShort(short).Success? && CompileLong(long).Success?
      ensures err.None? ==>
        shortText == short && longText == long && spec == Spec(CompileShort(short).value, CompileLong(long).value)
      ensures err.Some? ==>
        shortText == old(shortText) && longText == old(longText) && spec == old(spec)
        && err.value == (if CompileShort(short).Failure? then BadSpec(short) else BadSpec(long))
      ensures State() == old(State())
    {
      var s := CompileShort(short);
      var l := CompileLong(long);
      if s.Failure? {
        return Some(s.error);
      }
      if l.Failure? {
        return Some(l.error);
      }
      shortText, longText := short, long;
      spec := Spec(s.value, l.value);
      return None;
    }

    /** `add_short_options(short)`: registers the short specification and
        keeps the long one. */
    method AddShortOptions(short: string) returns (err: Option<OptionError>)
      requires Valid()
      modifies this
      ensures Valid() && longText == old(longText)
      ensures err.None? <==> CompileShort(short).Success?
      ensures err.None? ==> shortText == short && spec == old(spec).(short := CompileShort(short).value)
      ensures err.Some? ==> shortText == old(shortText) && spec == old(spec) && err.value == BadSpec(short)
      ensures State() == old(State())
    {
      var s := CompileShort(short);
      if s.Failure? {
        return Some(s.error);
      }
      shortText := short;
      spec := spec.(short := s.value);
      return None;
    }

    /** `add_long_options(long)`: registers the long specification and
        keeps the short one. */
    method AddLongOptions(long: string) returns (err: Option<OptionError>)
      requires Valid()
      modifies this
      ensures Valid() && shortText == old(shortText)
      ensures err.None? <==> CompileLong(long).Success?
      ensures err.None? ==> longText == long && spec == old(spec).(long := CompileLong(long).value)
      ensures err.Some? ==> longText == old(longText) && spec == old(spec) && err.value == BadSpec(long)
      ensures State() == old(State())
    {
      var l := CompileLong(long);
      if l.Failure? {
        return Some(l.error);
      }
      longText := long;
      spec := spec.(long := l.value);
      return None;
    }

    /** `get_short_options`: the registered string, verbatim; it compiles
        to the table in use. */
    method GetShortOptions() returns (r: string)
      requires Valid()
      ensures r == shortText && CompileShort(r) == Success(spec.short)
    {
      r := shortText;
    }

    /** `get_long_options`: the registered string, verbatim; it compiles
        to the table in use. */
    method GetLongOptions() returns (r: string)
      requires Valid()
      ensures r == longText && CompileLong(r) == Success(spec.long)
    {
      r := longText;
    }

    /** Reads the tokens one after another. The first token that fails
        ends the reading with its error; what the tokens before it added
        stays. */
    method ParseTokens(toks: seq<string>) returns (err: Option<OptionError>)
      requires Valid()
      modifies this
      ensures Valid()
      ensures shortText == old(shortText) && longText == old(longText) && spec == old(spec)
      ensures var o := Parse(spec, toks, old(State()));
        State() == o.parsed && err == o.error
    {
      err := ReadTokens(toks);
    }

    /** The token loop of `ParseTokens`, which needs nothing of the
        registered strings. */
    method ReadTokens(toks: seq<string>) returns (err: Option<OptionError>)
      modifies this
      ensures shortText == old(shortText) && longText == old(longText) && spec == old(spec)
      ensures var o := Parse(spec, toks, old(State()));
        State() == o.parsed && err == o.error
    {
      ghost var goal := ParseFrom(spec, toks, 0, State());
      var i := 0;
      while i < |toks|
        invariant i <= |toks|
        invariant ParseFrom(spec, toks, i, State()) == goal
        invariant shortText == old(shortText) && longText == old(longText) && spec == old(spec)
        decreases |toks| - i
      {
        match StepToken(spec, toks, i, State())
        case Failure(e) =>
          ParseFail(spec, toks, i, State(), e);
          return Some(e);
        case Success(v) =>
          ParseStep(spec, toks, i, State(), v.0, v.1);
          entries, mass, debug := v.0.entries, v.0.mass, v.0.debug;
          i := v.1;
      }
      return None;
    }

    /** `parse_args(line)`: splits the line into tokens and reads them. */
    method ParseArgs(line: string) returns (err: Option<OptionError>)
      requires Valid()
      modifies this
      ensures Valid()
      ensures shortText == old(shortText) && longText == old(longText) && spec == old(spec)
      ensures var o := Parse(spec, Tokens(line), old(State()));
        State() == o.parsed && err == o.error
    {
      var toks := Tokenize(line);
      err := ParseTokens(toks);
    }

    /** `is_present`: the value and polarity of the oldest entry the query
        finds, leaving the store alone. */
    method IsPresent(q: Query) returns (found: bool, value: string, polarity: bool)
      ensures found <==> FirstMatch(entries, q).Some?
      ensures found ==> var e := entries[FirstMatch(entries, q).value];
        value == e.value && polarity == e.polarity
      ensures !found ==> value == "" && !polarity
    {
      var i := 0;
      while i < |entries|
        invariant i <= |entries|
        invariant forall k :: 0 <= k < i ==> !Matches(entries[k], q)
      {
        if Matches(entries[i], q) {
          return true, entries[i].value, entries[i].polarity;
        }
        i := i + 1;
      }
      return false, "", false;
    }

    /** `extract`: as `is_present`, and the entry found leaves the store;
        nothing else changes. */
    method Extract(q: Query) returns (found: bool, value: string, polarity: bool)
      requires Valid()
      modifies this
      ensures Valid()
      ensures found <==> FirstMatch(old(entries), q).Some?
      ensures found ==> var e := old(entries)[FirstMatch(old(entries), q).value];
        value == e.value && polarity == e.polarity
      ensures !found ==> value == "" && !polarity
      ensures entries == Remove(old(entries), q)
      ensures mass == old(mass) && debug == old(debug)
      ensures shortText == old(shortText) && longText == old(longText) && spec == old(spec)
    {
      var i := 0;
      while i < |entries|
        invariant i <= |entries|
        invariant forall k :: 0 <= k < i ==> !Matches(entries[k], q)
      {
        if Matches(entries[i], q) {
          found, value, polarity := true, entries[i].value, entries[i].polarity;
          RemoveFirst(entries, q, i);
          entries := entries[..i] + entries[i + 1..];
          return;
        }
        i := i + 1;
      }
      return false, "", false;
    }

    /** The typed `is_present`: nothing when the query finds nothing, the
        number when the oldest value it finds converts, and an error when
        that value does not. */
    method IsPresentInt(q: Query) returns (r: Result<Option<int>, OptionError>)
      ensures FirstMatch(entries, q).None? ==> r == Success(None)
      ensures FirstMatch(entries, q).Some? ==>
        var v := entries[FirstMatch(entries, q).value].value;
        match IntValue(v)
        case Success(n) => r == Success(Some(n))
        case Failure(e) => r == Failure(e)
    {
      var found, value, _ := IsPresent(q);
      if !found {
        return Success(None);
      }
      match IntValue(value)
      case Success(n) => return Success(Some(n));
      case Failure(e) => return Failure(e);
    }

    /** The typed `extract`. The entry leaves the store even when its value
        does not convert. */
    method ExtractInt(q: Query) returns (r: Result<Option<int>, OptionError>)
      requires Valid()
      modifies this
      ensures Valid()
      ensures FirstMatch(old(entries), q).None? ==> r == Success(None)
      ensures FirstMatch(old(entries), q).Some? ==>
        var v := old(entries)[FirstMatch(old(entries), q).value].value;
        match IntValue(v)
        case Success(n) => r == Success(Some(n))
        case Failure(e) => r == Failure(e)
      ensures entries == Remove(old(entries), q)
      ensures mass == old(mass) && debug == old(debug)
      ensures shortText == old(shortText) && longText == old(longText) && spec == old(spec)
    {
      var found, value, _ := Extract(q);
      if !found {
        return Success(None);
      }
      match IntValue(value)
      case Success(n) => return Success(Some(n));
      case Failure(e) => return Failure(e);
    }

    /** `getMassOpts`: the mass arguments, in command-line order. */
    method GetMassOpts() returns (r: seq<string>)
      ensures r == mass
    {
      r := mass;
    }

    /** `toString`: the stored options written out one after another,
        separated by a blank; reading the text back gives the same
        entries (OptionRender.RenderRoundTrip). */
    method ToString() returns (s: string)
      ensures s == Render(entries)
    {
      s := "";
      var i := 0;
      while i < |entries|
        invariant i <= |entries|
        invariant s == Render(entries[..i])
      {
        RenderSnoc(entries, i);
        if i != 0 {
          s := s + " ";
        }
        s := s + EntryText(entries[i]);
        i := i + 1;
      }
      assert entries[..i] == entries;
    }
  }
}

=== FILE: Conversion.dfy ===
/** The string-to-integer conversion behind the typed `is_present` and
    `extract` calls: reading an `int` from a string stream. Leading white
    space is skipped, one sign is allowed, at least one decimal digit must
    follow, whatever comes after the digits is ignored, and a value outside
    the 32-bit range is a failure. */
module Conversion {
  import opened Wrappers

  const IntMin: int := -0x8000_0000
  const IntMax: int := 0x7fff_ffff

  /** The characters a stream skips before a number. */
  predicate IsStreamSpace(c: char)
  {
    c == ' ' || c == '\t' || c == '\n' || c == '\U{B}' || c == '\U{C}' || c == '\r'
  }

  predicate IsDigit(c: char)
  {
    '0' <= c <= '9'
  }

  predicate AllDigits(ds: string)
  {
    forall k :: 0 <= k < |ds| ==> IsDigit(ds[k])
  }

  function DigitValue(c: char): nat
    requires IsDigit(c)
  {
    c as int - '0' as int
  }

  function DigitChar(d: nat): (c: char)
    requires d < 10
    ensures IsDigit(c) && DigitValue(c) == d
  {
    ('0' as int + d) as char
  }

  /** The number written by a string of decimal digits, most significant
      first. */
  function Value(ds: string): nat
    requires AllDigits(ds)
  {
    if ds == [] then 0 else Value(ds[..|ds| - 1]) * 10 + DigitValue(ds[|ds| - 1])
  }

  /** The first position at or after i that does not hold white space. */
  function SkipSpace(s: string, i: nat): (r: nat)
    requires i <= |s|
    ensures i <= r <= |s| && (r < |s| ==> !IsStreamSpace(s[r]))
    ensures forall k :: i <= k < r ==> IsStreamSpace(s[k])
    decreases |s| - i
  {
    if i < |s| && IsStreamSpace(s[i]) then SkipSpace(s, i + 1) else i
  }

  /** The end of the run of digits that starts at i. */
  function DigitsEnd(s: string, i: nat): (r: nat)
    requires i <= |s|
    ensures i <= r <= |s| && (r < |s| ==> !IsDigit(s[r]))
    ensures AllDigits(s[i..r])
    decreases |s| - i
  {
    if i < |s| && IsDigit(s[i]) then DigitsEnd(s, i + 1) else i
  }

  /** Reads a sign and digits starting at position i. */
  function ReadNumber(s: string, i: nat): (r: Option<int>)
    requires i <= |s|
    ensures r.Some? ==> IntMin <= r.value <= IntMax
  {
    var j := if i < |s| && (s[i] == '-' || s[i] == '+') then i + 1 else i;
    var k := DigitsEnd(s, j);
    if k == j then None
    else
      var v: int := if i < j && s[i] == '-' then 0 - Value(s[j..k]) else Value(s[j..k]);
      if IntMin <= v <= IntMax then Some(v) else None
  }

  /** Reads an int from the front of s; None when the stream would fail. */
  function ParseInt(s: string): (r: Option<int>)
    ensures r.Some? ==> IntMin <= r.value <= IntMax
  {
    ReadNumber(s, SkipSpace(s, 0))
  }

  /** Decimal digits of a natural number, without leading zeros. */
  function ShowNat(n: nat): (r: string)
    ensures |r| >= 1 && AllDigits(r)
  {
    if n < 10 then [DigitChar(n)] else ShowNat(n / 10) + [DigitChar(n % 10)]
  }

  /** How a stream writes an int. */
  function Show(n: int): string
  {
    if n < 0 then "-" + ShowNat(-n) else ShowNat(n)
  }

  lemma {:induction false} ValueShowNat(n: nat)
    ensures Value(ShowNat(n)) == n
  {
    if n >= 10 {
      var ds := ShowNat(n);
      assert ds[..|ds| - 1] == ShowNat(n / 10);
      ValueShowNat(n / 10);
    }
  }

  lemma DigitsEndAt(s: string, i: nat, k: nat)
    requires i <= k <= |s| && AllDigits(s[i..k]) && (k == |s| || !IsDigit(s[k]))
    ensures DigitsEnd(s, i) == k
    decreases k - i
  {
    if i < k {
      assert IsDigit(s[i]) by { assert s[i] == s[i..k][0]; }
      assert s[i + 1..k] == s[i..k][1..];
      DigitsEndAt(s, i + 1, k);
    }
  }

  /** What a stream writes, it reads back, whatever text follows that
      does not continue the number. */
  lemma ParseShow(n: int, rest: string)
    requires IntMin <= n <= IntMax
    requires rest == [] || !IsDigit(rest[0])
    ensures ParseInt(Show(n) + rest) == Some(n)
  {
    var s := Show(n) + rest;
    var ds := ShowNat(if n < 0 then -n else n);
    var j := if n < 0 then 1 else 0;
    assert s[j..j + |ds|] == ds;
    assert !IsStreamSpace(s[0]);
    assert SkipSpace(s, 0) == 0;
    if j + |ds| < |s| {
      assert s[j + |ds|] == rest[0];
    }
    DigitsEndAt(s, j, j + |ds|);
    ValueShowNat(if n < 0 then -n else n);
    assert ReadNumber(s, 0) == Some(n);
  }

  /** Leading white space does not change what is read. */
  lemma ParseSkipsSpace(w: string, s: string)
    requires forall k :: 0 <= k < |w| ==> IsStreamSpace(w[k])
    ensures ParseInt(w + s) == ParseInt(s)
  {
    var i := SkipSpace(s, 0);
    SkipSpaceShift(w, s, 0);
    ReadNumberShift(w, s, i);
    assert ParseInt(w + s) == ReadNumber(w + s, |w| + i);
  }

  lemma ReadNumberShift(w: string, s: string, i: nat)
    requires i <= |s|
    ensures ReadNumber(w + s, |w| + i) == ReadNumber(s, i)
  {
    var t := w + s;
    var signed := i < |s| && (s[i] == '-' || s[i] == '+');
    if i < |s| {
      assert t[|w| + i] == s[i];
    }
    var j := if signed then i + 1 else i;
    var k := DigitsEnd(s, j);
    DigitsEndShift(w, s, j);
    var ds := s[j..k];
    assert t[|w| + j..|w| + k] == ds;
  }

  lemma {:induction false} SkipSpaceShift(w: string, s: string, k: nat)
    requires k <= |w| && forall m :: 0 <= m < |w| ==> IsStreamSpace(w[m])
    ensures SkipSpace(w + s, k) == |w| + SkipSpace(s, 0)
    decreases |w| - k
  {
    if k < |w| {
      SkipSpaceShift(w, s, k + 1);
    } else {
      SkipSpaceTail(w, s, 0);
    }
  }

  lemma {:induction false} SkipSpaceTail(w: string, s: string, i: nat)
    requires i <= |s|
    ensures SkipSpace(w + s, |w| + i) == |w| + SkipSpace(s, i)
    decreases |s| - i
  {
    if i < |s| {
      assert (w + s)[|w| + i] == s[i];
      SkipSpaceTail(w, s, i + 1);
    }
  }

  lemma {:induction false} DigitsEndShift(w: string, s: string, i: nat)
    requires i <= |s|
    ensures DigitsEnd(w + s, |w| + i) == |w| + DigitsEnd(s, i)
    decreases |s| - i
  {
    if i < |s| {
      assert (w + s)[|w| + i] == s[i];
      DigitsEndShift(w, s, i + 1);
    }
  }

  /** Text that starts with neither white space, a sign nor a digit does
      not convert: "appel" is no number. */
  lemma ParseNeedsDigits(s: string)
    requires s != [] && !IsStreamSpace(s[0]) && !IsDigit(s[0]) && s[0] != '-' && s[0] != '+'
    ensures ParseInt(s) == None
  {
    assert SkipSpace(s, 0) == 0;
    assert DigitsEnd(s, 0) == 0;
    assert ReadNumber(s, 0) == None;
  }

  /** A number beyond the 32-bit range does not convert. */
  lemma ParseOverflow(n: nat)
    requires n > IntMax
    ensures ParseInt(ShowNat(n)) == None
  {
    var ds := ShowNat(n);
    assert !IsStreamSpace(ds[0]);
    assert SkipSpace(ds, 0) == 0;
    assert ds[0..|ds|] == ds;
    DigitsEndAt(ds, 0, |ds|);
    ValueShowNat(n);
    assert ReadNumber(ds, 0) == None;
  }

  /** A negative number beyond the 32-bit range does not convert either. */
  lemma ParseUnderflow(n: nat)
    requires n > -IntMin
    ensures ParseInt("-" + ShowNat(n)) == None
  {
    var ds := ShowNat(n);
    var s := "-" + ds;
    assert !IsStreamSpace(s[0]);
    assert SkipSpace(s, 0) == 0;
    assert s[1..|s|] == ds;
    DigitsEndAt(s, 1, |s|);
    ValueShowNat(n);
    assert ReadNumber(s, 0) == None;
  }
}

=== FILE: FileNames.dfy ===
/** `basename` and `dirname`: a path is split at its last '/'. The part
    after it is the base name, the part before it the directory; a path
    without '/' is a base name in the directory ".". */
module FileNames {
  import opened Wrappers

  /** The position of the last '/' in the path, if any. */
  function LastSlash(path: string): (r: Option<nat>)
    ensures r.Some? ==> r.value < |path| && path[r.value] == '/'
    ensures r.Some? ==> forall k :: r.value < k < |path| ==> path[k] != '/'
    ensures r.None? <==> forall k :: 0 <= k < |path| ==> path[k] != '/'
  {
    if path == [] then None
    else if path[|path| - 1] == '/' then Some(|path| - 1)
    else LastSlash(path[..|path| - 1])
  }

  function Basename(path: string): (r: string)
    ensures '/' !in r
    ensures LastSlash(path).None? ==> r == path
  {
    match LastSlash(path)
    case None => path
    case Some(k) => path[k + 1..]
  }

  function Dirname(path: string): (r: string)
    ensures LastSlash(path).None? ==> r == "."
    ensures LastSlash(path).Some? ==> |r| < |path| && path[..|r|] == r && path[|r|] == '/'
  {
    match LastSlash(path)
    case None => "."
    case Some(k) => path[..k]
  }

  /** A path with a '/' is its directory, a '/', and its base name. */
  lemma SplitPath(path: string)
    requires '/' in path
    ensures path == Dirname(path) + "/" + Basename(path)
  {
    var k := LastSlash(path).value;
    assert path == path[..k] + [path[k]] + path[k + 1..];
  }

  /** Joining a directory and a name without '/' splits back into the
      two. */
  lemma {:induction false} JoinPath(dir: string, name: string)
    requires '/' !in name
    ensures Basename(dir + "/" + name) == name && Dirname(dir + "/" + name) == dir
  {
    var p := dir + "/" + name;
    LastSlashAfter(dir + "/", name);
    assert p[..|dir|] == dir && p[|dir| + 1..] == name;
  }

  lemma {:induction false} LastSlashAfter(a: string, name: string)
    requires a != [] && a[|a| - 1] == '/' && '/' !in name
    ensures LastSlash(a + name) == Some(|a| - 1)
    decreases |name|
  {
    if name == [] {
      assert a + name == a;
    } else {
      var n := name[..|name| - 1];
      assert (a + name)[..|a + name| - 1] == a + n;
      assert name[|name| - 1] in name;
      assert '/' !in n by {
        assert forall k :: 0 <= k < |n| ==> n[k] == name[k];
      }
      LastSlashAfter(a, n);
    }
  }
}

=== FILE: OptionParser.dfy ===
/** How CL_Options reads a list of command-line tokens against its
    compiled specification. Every token is one of four kinds:

      - the switch "--SetCommandLineDebug", which only turns debugging on;
      - a long option "--name" or "--name=value";
      - a cluster of short options "-abc" or "+abc" ('+' sets the polarity
        of the options in it to true, '-' to false);
      - anything else ("-", "+", "--" and every word not starting with '-'
        or '+'), which is a mass argument.

    Recognised options are appended to one store, in command-line order;
    mass arguments to a second list. A token that fails stops the parse;
    what earlier tokens stored stays stored. */
module OptionParser {
  import opened Wrappers
  import opened OptionSpec

  /** One recognised option: its name (one character for a short option),
      its value ("" when there is none), its polarity and whether it was
      given in long form. */
  datatype Entry = Entry(name: string, value: string, polarity: bool, long: bool)

  /** What a parse has collected so far. */
  datatype Parsed = Parsed(entries: seq<Entry>, mass: seq<string>, debug: bool)

  /** The final state of a parse and the error that stopped it, if any. */
  datatype Outcome = Outcome(parsed: Parsed, error: Option<OptionError>)

  datatype TokenKind = DebugSwitch | LongOption | ShortCluster | Plain

  const DebugToken: string := "--SetCommandLineDebug"

  function Kind(t: string): TokenKind
  {
    if t == DebugToken then DebugSwitch
    else if |t| > 2 && t[0] == '-' && t[1] == '-' then LongOption
    else if |t| >= 2 && (t[0] == '-' || t[0] == '+') && t != "--" then ShortCluster
    else Plain
  }

  /** The arity of a short option; in permissive mode every option exists
      and takes an optional value. */
  function ShortArity(spec: Spec, c: char): (r: Option<Arity>)
    ensures Permissive(spec) ==> r == Some(Optional)
    ensures !Permissive(spec) ==> (r.Some? <==> c in spec.short)
  {
    if Permissive(spec) then Some(Optional)
    else if c in spec.short then Some(spec.short[c])
    else None
  }

  function LongArity(spec: Spec, w: string): (r: Option<Arity>)
    ensures Permissive(spec) ==> r == Some(Optional)
    ensures !Permissive(spec) ==> (r.Some? <==> w in spec.long)
  {
    if Permissive(spec) then Some(Optional)
    else if w in spec.long then Some(spec.long[w])
    else None
  }

  /** A token that cannot serve as the value of the option before it. */
  predicate StartsWithDash(t: string)
  {
    t != [] && t[0] == '-'
  }

  /** The value of an option of arity `a` whose own token carries the text
      `attached` after its name, and the position of the token that follows.
      An option without argument takes nothing. Otherwise non-empty
      attached text is the value; failing that, the next token is, unless
      it is missing or starts with '-', in which case a required value is
      an error and an optional one is empty. */
  function TakeValue(attached: string, toks: seq<string>, next: nat, a: Arity): (r: Option<(string, nat)>)
    requires next <= |toks|
    ensures r.None? <==> a == Required && attached == "" && (next == |toks| || StartsWithDash(toks[next]))
    ensures r.Some? ==> r.value.1 == next || (r.value.1 == next + 1 && next < |toks| && r.value == (toks[next], next + 1))
    ensures r.Some? && r.value.1 == next + 1 ==> a != NoArg && attached == "" && !StartsWithDash(toks[next])
    ensures r.Some? && r.value.1 == next ==> r.value.0 == (if a == NoArg then "" else attached)
  {
    if a == NoArg then Some(("", next))
    else if attached != "" then Some((attached, next))
    else if next < |toks| && !StartsWithDash(toks[next]) then Some((toks[next], next + 1))
    else if a == Required then None
    else Some(("", next))
  }

  /** An entry fits the specification: its option exists, and an option
      without argument carries no value. */
  predicate Consistent(spec: Spec, e: Entry)
  {
    if e.long then
      LongArity(spec, e.name).Some? && (LongArity(spec, e.name).value == NoArg ==> e.value == "")
    else
      |e.name| == 1 && ShortArity(spec, e.name[0]).Some?
      && (ShortArity(spec, e.name[0]).value == NoArg ==> e.value == "")
  }

  /** Reads the short options of a cluster from position j of its body on.
      Characters without argument are stored one after another; the first
      character that takes a value ends the cluster, taking the rest of the
      body as attached text. An unknown character fails the whole token. */
  function Cluster(spec: Spec, body: string, j: nat, pol: bool, toks: seq<string>, next: nat, acc: seq<Entry>)
    : (r: Result<(seq<Entry>, nat), OptionError>)
    requires j <= |body| && next <= |toks|
    ensures r.Success? ==> |acc| <= |r.value.0| && r.value.0[..|acc|] == acc
    ensures r.Success? ==> next <= r.value.1 <= next + 1 && r.value.1 <= |toks|
    ensures r.Success? && r.value.1 == next + 1 ==> !StartsWithDash(toks[next])
    ensures r.Success? ==> forall k :: |acc| <= k < |r.value.0| ==>
      var e := r.value.0[k]; !e.long && e.polarity == pol && Consistent(spec, e)
    ensures Permissive(spec) ==> r.Success?
    decreases |body| - j
  {
    if j == |body| then Success((acc, next))
    else
      var c := body[j];
      match ShortArity(spec, c)
      case None => Failure(UnknownOption([c]))
      case Some(a) =>
        if a == NoArg then Cluster(spec, body, j + 1, pol, toks, next, acc + [Entry([c], "", pol, false)])
        else match TakeValue(body[j + 1..], toks, next, a)
          case None => Failure(MissingArgument([c]))
          case Some(v) => Success((acc + [Entry([c], v.0, pol, false)], v.1))
  }

  /** Reads a long option whose text after "--" is `body`: the name runs up
      to the first '=', and what follows that '=' is attached text. */
  function Long(spec: Spec, body: string, toks: seq<string>, next: nat): (r: Result<(Entry, nat), OptionError>)
    requires next <= |toks|
    ensures r.Success? ==> next <= r.value.1 <= next + 1 && r.value.1 <= |toks|
    ensures r.Success? && r.value.1 == next + 1 ==> !StartsWithDash(toks[next])
    ensures r.Success? ==> r.value.0.long && !r.value.0.polarity && Consistent(spec, r.value.0)
    ensures r.Success? ==> '=' !in r.value.0.name && |r.value.0.name| <= |body| && body[..|r.value.0.name|] == r.value.0.name
    ensures Permissive(spec) ==> r.Success?
  {
    var k := CharIndex(body, '=');
    var name := body[..k];
    var attached := if k < |body| then body[k + 1..] else "";
    match LongArity(spec, name)
    case None => Failure(UnknownOption(name))
    case Some(a) =>
      match TakeValue(attached, toks, next, a)
      case None => Failure(MissingArgument(name))
      case Some(v) => Success((Entry(name, v.0, false, true), v.1))
  }

  /** q grows out of p: entries that fit the specification and mass
      arguments are only ever appended, and debugging once on stays on. */
  predicate Extends(spec: Spec, p: Parsed, q: Parsed)
  {
    |p.entries| <= |q.entries| && q.entries[..|p.entries|] == p.entries
    && (forall k :: |p.entries| <= k < |q.entries| ==> Consistent(spec, q.entries[k]))
    && |p.mass| <= |q.mass| && q.mass[..|p.mass|] == p.mass
    && (p.debug ==> q.debug)
  }

  lemma ExtendsTrans(spec: Spec, p: Parsed, q: Parsed, r: Parsed)
    requires Extends(spec, p, q) && Extends(spec, q, r)
    ensures Extends(spec, p, r)
  {
    assert r.entries[..|p.entries|] == r.entries[..|q.entries|][..|p.entries|];
    assert r.mass[..|p.mass|] == r.mass[..|q.mass|][..|p.mass|];
    forall k | |p.entries| <= k < |r.entries| ensures Consistent(spec, r.entries[k]) {
      if k < |q.entries| {
        assert r.entries[k] == r.entries[..|q.entries|][k];
      }
    }
  }

  /** Handles the token at position i; on success, the new state and the
      position of the next unread token. */
  function StepToken(spec: Spec, toks: seq<string>, i: nat, p: Parsed): (r: Result<(Parsed, nat), OptionError>)
    requires i < |toks|
    ensures r.Success? ==> i < r.value.1 <= i + 2 && r.value.1 <= |toks|
    ensures r.Success? && r.value.1 == i + 2 ==> !StartsWithDash(toks[i + 1])
    ensures Kind(toks[i]) == Plain || Kind(toks[i]) == DebugSwitch ==> r.Success? && r.value.1 == i + 1
    ensures r.Success? ==> var q := r.value.0;
      Extends(spec, p, q)
      && q.mass == (if Kind(toks[i]) == Plain then p.mass + [toks[i]] else p.mass)
      && q.debug == (p.debug || Kind(toks[i]) == DebugSwitch)
    ensures Permissive(spec) ==> r.Success?
  {
    var t := toks[i];
    match Kind(t)
    case DebugSwitch => Success((p.(debug := true), i + 1))
    case Plain => Success((p.(mass := p.mass + [t]), i + 1))
    case LongOption =>
      (match Long(spec, t[2..], toks, i + 1)
       case Failure(e) => Failure(e)
       case Success(v) => Success((p.(entries := p.entries + [v.0]), v.1)))
    case ShortCluster =>
      match Cluster(spec, t[1..], 0, t[0] == '+', toks, i + 1, [])
      case Failure(e) => Failure(e)
      case Success(v) => Success((p.(entries := p.entries + v.0), v.1))
  }

  /** Parses the tokens from position i on, starting from state p. */
  function ParseFrom(spec: Spec, toks: seq<string>, i: nat, p: Parsed): (r: Outcome)
    requires i <= |toks|
    ensures Extends(spec, p, r.parsed)
    ensures Permissive(spec) ==> r.error == None
    decreases |toks| - i
  {
    if i == |toks| then Outcome(p, None)
    else match StepToken(spec, toks, i, p)
      case Failure(e) => Outcome(p, Some(e))
      case Success(v) =>
        var r := ParseFrom(spec, toks, v.1, v.0);
        ExtendsTrans(spec, p, v.0, r.parsed);
        r
  }

  function Parse(spec: Spec, toks: seq<string>, p: Parsed): Outcome
  {
    ParseFrom(spec, toks, 0, p)
  }
}

=== FILE: OptionRender.dfy ===
/** How CL_Options writes its stored options back as a command line
    (`toString`): each entry as "-c value", "+c value" or "--name=value"
    (the value and its separator left out when the value is empty), the
    entries separated by one blank, mass arguments left out. */
module OptionRender {
  import opened Wrappers
  import opened UnicodeStrings
  import opened OptionSpec
  import opened OptionParser
  import opened ParserLaws
  import opened Tokenizer

  /** The command-line words of one entry. */
  function EntryWords(e: Entry): (r: seq<string>)
    ensures 1 <= |r| <= 2
  {
    if e.long then ["--" + e.name + (if e.value == "" then "" else "=" + e.value)]
    else [[if e.polarity then '+' else '-'] + e.name] + (if e.value == "" then [] else [e.value])
  }

  /** The text of one entry. */
  function EntryText(e: Entry): string
  {
    Joined(EntryWords(e), " ")
  }

  function EntryTexts(es: seq<Entry>): (r: seq<string>)
    ensures |r| == |es| && forall k :: 0 <= k < |es| ==> r[k] == EntryText(es[k])
  {
    if es == [] then [] else [EntryText(es[0])] + EntryTexts(es[1..])
  }

  /** What `toString` returns. */
  function Render(es: seq<Entry>): string
  {
    Joined(EntryTexts(es), " ")
  }

  /** Rendering one more entry appends its text, after a blank unless it
      is the first. */
  lemma RenderSnoc(es: seq<Entry>, i: nat)
    requires i < |es|
    ensures Render(es[..i + 1]) == (if i == 0 then "" else Render(es[..i]) + " ") + EntryText(es[i])
  {
    var ts := EntryTexts(es[..i]);
    var x := EntryText(es[i]);
    assert EntryTexts(es[..i + 1]) == ts + [x] by {
      assert es[..i + 1] == es[..i] + [es[i]];
      EntryTextsSnoc(es[..i], es[i]);
    }
    if i == 0 {
      assert ts + [x] == [x];
    } else {
      JoinedSnoc(ts, " ", x);
    }
  }

  lemma EntryTextsSnoc(es: seq<Entry>, e: Entry)
    ensures EntryTexts(es + [e]) == EntryTexts(es) + [EntryText(e)]
  {
    var l := EntryTexts(es + [e]);
    var r := EntryTexts(es) + [EntryText(e)];
    assert |l| == |r|;
    forall k | 0 <= k < |l| ensures l[k] == r[k] {
      assert (es + [e])[k] == if k < |es| then es[k] else e;
    }
  }

  /** All command-line words of a list of entries. */
  function Words(es: seq<Entry>): seq<string>
  {
    if es == [] then [] else EntryWords(es[0]) + Words(es[1..])
  }

  lemma {:induction false} JoinedAppend(a: seq<string>, b: seq<string>, sep: string)
    requires a != [] && b != []
    ensures Joined(a + b, sep) == Joined(a, sep) + sep + Joined(b, sep)
  {
    if |a| == 1 {
      assert (a + b)[1..] == b;
    } else {
      assert (a + b)[1..] == a[1..] + b;
      JoinedAppend(a[1..], b, sep);
    }
  }

  lemma {:induction false} RenderWords(es: seq<Entry>)
    ensures Render(es) == Joined(Words(es), " ")
  {
    if es != [] {
      var ts := EntryTexts(es);
      assert ts[1..] == EntryTexts(es[1..]);
      RenderWords(es[1..]);
      if |es| > 1 {
        assert Words(es[1..]) == EntryWords(es[1..][0]) + Words(es[1..][1..]);
        assert Render(es) == EntryText(es[0]) + " " + Render(es[1..]);
        JoinedAppend(EntryWords(es[0]), Words(es[1..]), " ");
      } else {
        assert es[1..] == [];
        assert EntryTexts(es) == [EntryText(es[0])];
        assert Words(es) == EntryWords(es[0]) + [] == EntryWords(es[0]);
        assert Render(es) == EntryText(es[0]);
      }
    }
  }

  /** An entry `toString` writes so that parsing the text gives it back:
      its option is known to the specification, its value is present
      exactly when the option takes one, names and values hold no blank or
      double quote, a short name is not '-', a long name holds no '=' and
      is not the debug switch, and the value of a short option does not
      start with '-' (it becomes a separate word). */
  predicate Faithful(spec: Spec, e: Entry)
  {
    Word(e.name) && Word(e.value)
    && if e.long then
      LongArity(spec, e.name).Some? && (LongArity(spec, e.name).value == NoArg <==> e.value == "")
      && e.name != "" && '=' !in e.name && "--" + e.name != DebugToken && !e.polarity
    else
      |e.name| == 1 && e.name[0] != '-'
      && ShortArity(spec, e.name[0]).Some? && (ShortArity(spec, e.name[0]).value == NoArg <==> e.value == "")
      && !StartsWithDash(e.value)
  }

  lemma WordAppend(a: string, b: string)
    requires Word(a) && Word(b)
    ensures Word(a + b)
  {
    assert forall k :: 0 <= k < |a + b| ==> (a + b)[k] == if k < |a| then a[k] else b[k - |a|];
  }

  lemma {:induction false} WordsAreWords(spec: Spec, es: seq<Entry>)
    requires forall k :: 0 <= k < |es| ==> Faithful(spec, es[k])
    ensures forall k :: 0 <= k < |Words(es)| ==> Words(es)[k] != "" && Word(Words(es)[k])
  {
    if es != [] {
      var e := es[0];
      assert Faithful(spec, e);
      WordsAreWords(spec, es[1..]);
      var ws := EntryWords(e);
      if e.long {
        WordAppend("--", e.name);
        if e.value != "" {
          WordAppend("=", e.value);
          WordAppend("--" + e.name, "=" + e.value);
        } else {
          assert "--" + e.name + "" == "--" + e.name;
        }
      } else {
        WordAppend([if e.polarity then '+' else '-'], e.name);
      }
      var rest := Words(es[1..]);
      assert Words(es) == ws + rest;
      forall k | 0 <= k < |Words(es)| ensures Words(es)[k] != "" && Word(Words(es)[k]) {
        if k >= |ws| {
          assert Words(es)[k] == rest[k - |ws|];
        }
      }
    }
  }

  /** The words of one faithful entry are read back as that entry, and
      nothing else is consumed. */
  lemma ParseEntry(spec: Spec, toks: seq<string>, i: nat, e: Entry, p: Parsed)
    requires Faithful(spec, e) && i + |EntryWords(e)| <= |toks| && toks[i..i + |EntryWords(e)|] == EntryWords(e)
    ensures StepToken(spec, toks, i, p) == Success((p.(entries := p.entries + [e]), i + |EntryWords(e)|))
  {
    var w := EntryWords(e);
    assert toks[i] == w[0];
    if e.long {
      ParseLongEntry(spec, toks, i, e, p);
    } else if e.value == "" {
      ParseFlagEntry(spec, toks, i, e, p);
    } else {
      assert toks[i + 1] == w[1];
      ParseShortEntry(spec, toks, i, e, p);
    }
  }

  lemma ParseLongEntry(spec: Spec, toks: seq<string>, i: nat, e: Entry, p: Parsed)
    requires Faithful(spec, e) && e.long && i < |toks| && toks[i] == EntryWords(e)[0]
    ensures StepToken(spec, toks, i, p) == Success((p.(entries := p.entries + [e]), i + 1))
  {
    var rest := if e.value == "" then "" else "=" + e.value;
    assert LongToken(toks[i], e.name, rest) by {
      if e.value == "" {
        assert toks[i] == "--" + e.name + "";
      } else {
        assert toks[i][2 + |e.name|] == '=';
        assert forall k :: 0 <= k < |DebugToken| ==> DebugToken[k] != '=';
      }
    }
    LongValue(spec, toks, i, p, e.name, rest);
    if e.value != "" {
      assert rest[1..] == e.value;
    }
  }

  lemma ParseFlagEntry(spec: Spec, toks: seq<string>, i: nat, e: Entry, p: Parsed)
    requires Faithful(spec, e) && !e.long && e.value == "" && i < |toks| && toks[i] == EntryWords(e)[0]
    ensures StepToken(spec, toks, i, p) == Success((p.(entries := p.entries + [e]), i + 1))
  {
    var t := toks[i];
    var c := e.name[0];
    assert e.name == [c];
    assert t[1..] == [c];
    assert ClusterToken(t);
    assert AllNoArg(spec, t[1..]);
    ShortFlags(spec, toks, i, p);
    assert Flags(t[1..], t[0] == '+') == [e];
  }

  lemma ParseShortEntry(spec: Spec, toks: seq<string>, i: nat, e: Entry, p: Parsed)
    requires Faithful(spec, e) && !e.long && e.value != "" && i + 1 < |toks|
    requires toks[i] == EntryWords(e)[0] && toks[i + 1] == e.value
    ensures StepToken(spec, toks, i, p) == Success((p.(entries := p.entries + [e]), i + 2))
  {
    var t := toks[i];
    var c := e.name[0];
    assert e.name == [c];
    assert t == [t[0]] + "" + [c] + "";
    assert ClusterToken(t);
    assert AllNoArg(spec, "");
    ShortValue(spec, toks, i, p, "", c, "");
    assert p.entries + Flags("", t[0] == '+') == p.entries;
  }

  lemma ParseEntryThen(spec: Spec, toks: seq<string>, i: nat, e: Entry, p: Parsed, r: Outcome)
    requires Faithful(spec, e) && i + |EntryWords(e)| <= |toks| && toks[i..i + |EntryWords(e)|] == EntryWords(e)
    requires ParseFrom(spec, toks, i + |EntryWords(e)|, p.(entries := p.entries + [e])) == r
    ensures ParseFrom(spec, toks, i, p) == r
  {
    ParseEntry(spec, toks, i, e, p);
    ParseStep(spec, toks, i, p, p.(entries := p.entries + [e]), i + |EntryWords(e)|);
  }

  /** Every entry of es is faithful, stated entry by entry from the front. */
  predicate AllFaithful(spec: Spec, es: seq<Entry>)
  {
    es == [] || (Faithful(spec, es[0]) && AllFaithful(spec, es[1..]))
  }

  lemma {:induction false} AllFaithfulEach(spec: Spec, es: seq<Entry>)
    requires forall k :: 0 <= k < |es| ==> Faithful(spec, es[k])
    ensures AllFaithful(spec, es)
  {
    if es != [] {
      assert forall k :: 0 <= k < |es[1..]| ==> es[1..][k] == es[k + 1];
      AllFaithfulEach(spec, es[1..]);
    }
  }

  /** The words of a list of faithful entries are read back as those
      entries, with no error and no mass argument. */
  lemma {:induction false} ParseWords(spec: Spec, toks: seq<string>, i: nat, es: seq<Entry>, p: Parsed)
    requires AllFaithful(spec, es)
    requires i <= |toks| && toks[i..] == Words(es)
    ensures ParseFrom(spec, toks, i, p) == Outcome(p.(entries := p.entries + es), None)
    decreases |es|
  {
    if es == [] {
      assert p.entries + es == p.entries;
    } else {
      var n := |EntryWords(es[0])|;
      WordsSplit(toks, i, es);
      var q := p.(entries := p.entries + [es[0]]);
      ParseWords(spec, toks, i + n, es[1..], q);
      EntriesCons(p, es);
      ParseEntryThen(spec, toks, i, es[0], p, Outcome(p.(entries := p.entries + es), None));
    }
  }

  lemma WordsSplit(toks: seq<string>, i: nat, es: seq<Entry>)
    requires es != [] && i <= |toks| && toks[i..] == Words(es)
    ensures var n := |EntryWords(es[0])|;
      i + n <= |toks| && toks[i..i + n] == EntryWords(es[0]) && toks[i + n..] == Words(es[1..])
  {
    var w := EntryWords(es[0]);
    var n := |w|;
    assert toks[i..] == w + Words(es[1..]);
    assert toks[i..][..n] == w;
    assert toks[i..i + n] == toks[i..][..n];
    assert toks[i + n..] == toks[i..][n..];
  }

  lemma EntriesCons(p: Parsed, es: seq<Entry>)
    requires es != []
    ensures p.(entries := p.entries + [es[0]]).(entries := p.entries + [es[0]] + es[1..]) == p.(entries := p.entries + es)
  {
    assert es == [es[0]] + es[1..];
    assert p.entries + [es[0]] + es[1..] == p.entries + ([es[0]] + es[1..]);
  }

  /** Reading back what `toString` writes gives the same entries, in the
      same order, and no mass argument. */
  lemma RenderRoundTrip(spec: Spec, es: seq<Entry>)
    requires forall k :: 0 <= k < |es| ==> Faithful(spec, es[k])
    ensures Parse(spec, Tokens(Render(es)), Parsed([], [], false)) == Outcome(Parsed(es, [], false), None)
  {
    RenderWords(es);
    WordsAreWords(spec, es);
    TokensJoined(Words(es));
    var toks := Words(es);
    assert toks[0..] == toks;
    AllFaithfulEach(spec, es);
    ParseWords(spec, toks, 0, es, Parsed([], [], false));
  }
}

=== FILE: OptionSpec.dfy ===
/** The option specification language of CL_Options: which short and long
    options exist and how many arguments each takes. A short spec such as
    "t:qf::" lists characters, each followed by no colon (no argument), one
    colon (a required argument) or two colons (an optional argument); commas
    between them are tolerated ("t::,f:"). A long spec such as
    "test:,raar" lists comma-separated names with the same colon suffixes. */
module OptionSpec {
  import opened Wrappers
  import opened UnicodeStrings

  datatype Arity = NoArg | Required | Optional

  /** The errors CL_Options raises (all of them an OptionError in the
      source). */
  datatype OptionError =
    | UnknownOption(name: string)
    | MissingArgument(name: string)
    | BadSpec(spec: string)
    | BadConversion(value: string)

  /** The compiled tables: short and long names are independent. */
  datatype Spec = Spec(short: map<char, Arity>, long: map<string, Arity>)

  /** With no option declared at all, every option is accepted. */
  predicate Permissive(spec: Spec)
  {
    spec.short == map[] && spec.long == map[]
  }

  /** The colon suffix that declares an arity. */
  function Colons(a: Arity): (r: string)
    ensures |r| <= 2 && forall k :: 0 <= k < |r| ==> r[k] == ':'
  {
    match a
    case NoArg => ""
    case Required => ":"
    case Optional => "::"
  }

  /** The arity a number of colons declares; more than two is malformed. */
  function ArityOf(n: nat): (r: Option<Arity>)
    ensures r.Some? <==> n <= 2
    ensures r.Some? ==> |Colons(r.value)| == n
  {
    if n == 0 then Some(NoArg)
    else if n == 1 then Some(Required)
    else if n == 2 then Some(Optional)
    else None
  }

  /** Number of colons at the front of s. */
  function ColonRun(s: string): (r: nat)
    ensures r <= |s| && (forall k :: 0 <= k < r ==> s[k] == ':') && (r < |s| ==> s[r] != ':')
  {
    if s != [] && s[0] == ':' then 1 + ColonRun(s[1..]) else 0
  }

  /** Number of characters before the first c in s (|s| when there is
      none). */
  function CharIndex(s: string, c: char): (r: nat)
    ensures r <= |s| && (forall k :: 0 <= k < r ==> s[k] != c) && (r < |s| ==> s[r] == c)
  {
    if s == [] || s[0] == c then 0 else 1 + CharIndex(s[1..], c)
  }

  /** Adds a declaration to a table; a second declaration of the same name
      must agree with the first. */
  function Declare<K>(table: map<K, Arity>, name: K, a: Arity): Option<map<K, Arity>>
  {
    if name in table && table[name] != a then None else Some(table[name := a])
  }

  // ------------------------------------------------------------------
  // Short specs
  // ------------------------------------------------------------------

  /** Reads the declarations of a short spec into `table`; None when the
      spec is malformed: a colon with no character before it, three or more
      colons, or a character declared twice with different arities. */
  function ShortFrom(spec: string, table: map<char, Arity>): (r: Option<map<char, Arity>>)
    ensures r.Some? ==> forall c :: c in r.value ==> c in table || (c != ':' && c != ',')
    decreases |spec|
  {
    if spec == [] then Some(table)
    else if spec[0] == ',' then ShortFrom(spec[1..], table)
    else if spec[0] == ':' then None
    else
      var n := ColonRun(spec[1..]);
      match ArityOf(n)
      case None => None
      case Some(a) =>
        match Declare(table, spec[0], a)
        case None => None
        case Some(t) => ShortFrom(spec[1 + n..], t)
  }

  function CompileShort(spec: string): (r: Result<map<char, Arity>, OptionError>)
    ensures r.Success? ==> forall c :: c in r.value ==> c != ':' && c != ','
    ensures r.Failure? ==> r.error == BadSpec(spec)
  {
    match ShortFrom(spec, map[])
    case None => Failure(BadSpec(spec))
    case Some(t) => Success(t)
  }

  datatype Decl<K> = Decl(name: K, arity: Arity)

  /** The table a list of declarations builds, starting from `table`. */
  function Insert<K>(table: map<K, Arity>, ds: seq<Decl<K>>): map<K, Arity>
    decreases |ds|
  {
    if |ds| == 0 then table else Insert(table[ds[0].name := ds[0].arity], ds[1..])
  }

  predicate DistinctNames<K(==)>(ds: seq<Decl<K>>)
  {
    forall i, j :: 0 <= i < j < |ds| ==> ds[i].name != ds[j].name
  }

  /** The declarations name distinct keys, none of them in `table` yet. */
  predicate Fresh<K(==)>(ds: seq<Decl<K>>, table: map<K, Arity>)
  {
    DistinctNames(ds) && forall k :: 0 <= k < |ds| ==> ds[k].name !in table
  }

  lemma FreshStep<K>(ds: seq<Decl<K>>, table: map<K, Arity>)
    requires |ds| > 0 && Fresh(ds, table)
    ensures Fresh(ds[1..], table[ds[0].name := ds[0].arity])
  {
    forall k | 0 <= k < |ds| - 1 ensures ds[1..][k].name !in table[ds[0].name := ds[0].arity] {
      assert ds[1..][k] == ds[k + 1];
    }
  }

  /** Each short declaration written as its character and colons. */
  function ShortTexts(ds: seq<Decl<char>>): (r: seq<string>)
    ensures |r| == |ds|
    ensures forall k :: 0 <= k < |ds| ==> r[k] == [ds[k].name] + Colons(ds[k].arity)
  {
    if ds == [] then [] else [[ds[0].name] + Colons(ds[0].arity)] + ShortTexts(ds[1..])
  }

  /** A short spec for the declarations, with `sep` ("" or ",") between
      them. */
  function RenderShort(ds: seq<Decl<char>>, sep: string): string
  {
    Joined(ShortTexts(ds), sep)
  }

  predicate ShortName(c: char)
  {
    c != ':' && c != ','
  }

  lemma ColonRunAfter(a: Arity, t: string)
    requires t == [] || t[0] != ':'
    ensures ColonRun(Colons(a) + t) == |Colons(a)|
  {
    var s := Colons(a) + t;
    if a == Required {
      assert s[1..] == t;
    } else if a == Optional {
      assert s[1..] == ":" + t && s[1..][1..] == t;
    }
  }

  /** One declaration followed by `rest` is read as that declaration, then
      `rest`. */
  lemma ShortStep(c: char, a: Arity, rest: string, table: map<char, Arity>)
    requires ShortName(c) && c !in table
    requires rest == [] || rest[0] != ':'
    ensures ShortFrom([c] + Colons(a) + rest, table) == ShortFrom(rest, table[c := a])
  {
    var s := [c] + Colons(a) + rest;
    var n := |Colons(a)|;
    assert ColonRun(s[1..]) == n by {
      assert s[1..] == Colons(a) + rest;
      ColonRunAfter(a, rest);
    }
    assert s[1 + n..] == rest;
    assert ArityOf(n) == Some(a);
    assert Declare(table, c, a) == Some(table[c := a]);
  }

  /** Writing declarations out as a short spec and compiling it gives
      their table back, with or without commas between them. */
  lemma {:induction false} ShortRoundTrip(ds: seq<Decl<char>>, sep: string, table: map<char, Arity>)
    requires sep == "" || sep == ","
    requires Fresh(ds, table) && forall d :: d in ds ==> ShortName(d.name)
    ensures ShortFrom(RenderShort(ds, sep), table) == Some(Insert(table, ds))
  {
    if ds != [] {
      var c, a := ds[0].name, ds[0].arity;
      var texts := ShortTexts(ds);
      assert ShortTexts(ds[1..]) == texts[1..];
      var t := table[c := a];
      FreshStep(ds, table);
      ShortRoundTrip(ds[1..], sep, t);
      if |ds| == 1 {
        assert RenderShort(ds, sep) == [c] + Colons(a) + [];
        ShortStep(c, a, [], table);
      } else {
        var rest := RenderShort(ds[1..], sep);
        assert rest[0] == ds[1].name by {
          var tt := texts[1..];
          assert tt[0] == [ds[1].name] + Colons(ds[1].arity);
          if |tt| > 1 {
            assert rest == tt[0] + sep + Joined(tt[1..], sep);
          } else {
            assert rest == tt[0];
          }
        }
        assert RenderShort(ds, sep) == [c] + Colons(a) + (sep + rest);
        ShortStep(c, a, sep + rest, table);
        if sep == "," {
          assert (sep + rest)[1..] == rest;
        } else {
          assert sep + rest == rest;
        }
      }
    }
  }

  /** A colon with no option character before it is malformed. */
  lemma ShortLeadingColon(rest: string)
    ensures CompileShort(":" + rest).Failure?
  {
  }

  /** Three colons after a character are malformed, wherever the
      character stands in the spec. */
  lemma ShortTooManyColons(pre: string, c: char, rest: string)
    requires ShortName(c)
    ensures CompileShort(pre + [c] + ":::" + rest).Failure?
  {
    var s' := [c] + ":::" + rest;
    assert pre + [c] + ":::" + rest == pre + s';
    ShortFromAppend(pre, s', map[]);
    match ShortFrom(pre, map[])
    case None =>
    case Some(t) =>
      ShortColonsAt(c, rest, t);
  }

  lemma ShortColonsAt(c: char, rest: string, table: map<char, Arity>)
    requires ShortName(c)
    ensures ShortFrom([c] + ":::" + rest, table) == None
  {
    var s := [c] + ":::" + rest;
    assert s[1..] == ":::" + rest;
    assert (":::" + rest)[1..] == "::" + rest;
    assert ("::" + rest)[1..] == ":" + rest;
    assert ColonRun(s[1..]) >= 3;
  }

  /** A short spec is read in order: reading `pre + s'`, where `s'` does
      not start with a colon, reads `pre`, then `s'` into the table `pre`
      built. */
  lemma {:induction false} ShortFromAppend(pre: string, s': string, table: map<char, Arity>)
    requires s' == [] || s'[0] != ':'
    ensures ShortFrom(pre + s', table)
         == match ShortFrom(pre, table) case None => None case Some(t) => ShortFrom(s', t)
    decreases |pre|
  {
    var s := pre + s';
    if pre == [] {
      assert s == s';
    } else if pre[0] == ',' {
      assert s[0] == ',' && s[1..] == pre[1..] + s';
      ShortFromAppend(pre[1..], s', table);
    } else if pre[0] != ':' {
      assert s[0] == pre[0] && s[1..] == pre[1..] + s';
      ColonRunAppend(pre[1..], s');
      var n := ColonRun(pre[1..]);
      match ArityOf(n)
      case None =>
      case Some(a) =>
        match Declare(table, pre[0], a)
        case None =>
        case Some(t) =>
          assert s[1 + n..] == pre[1 + n..] + s';
          ShortFromAppend(pre[1 + n..], s', t);
    } else {
      assert s[0] == ':';
    }
  }

  lemma {:induction false} ColonRunAppend(x: string, y: string)
    requires y == [] || y[0] != ':'
    ensures ColonRun(x + y) == ColonRun(x)
  {
    if x == [] {
      assert x + y == y;
    } else if x[0] == ':' {
      assert (x + y)[0] == ':' && (x + y)[1..] == x[1..] + y;
      ColonRunAppend(x[1..], y);
    } else {
      assert (x + y)[0] == x[0];
    }
  }

  /** A character declared twice must be declared with the same arity;
      repeating the same declaration is harmless. */
  lemma ShortRedeclared(c: char, a: Arity, b: Arity)
    requires ShortName(c)
    ensures CompileShort([c] + Colons(a) + [c] + Colons(b))
         == if a == b then Success(map[c := a]) else Failure(BadSpec([c] + Colons(a) + [c] + Colons(b)))
  {
    var s := [c] + Colons(a) + [c] + Colons(b);
    var d := Declare(map[c := a], c, b);
    assert ShortFrom(s, map[]) == d by {
      var t := [c] + Colons(b);
      assert s == [c] + Colons(a) + t;
      ShortStep(c, a, t, map[]);
      ShortLast(c, b, map[c := a]);
    }
    if a == b {
      assert map[c := a][c := a] == map[c := a];
      assert d == Some(map[c := a]);
    } else {
      assert d == None;
    }
  }

  /** A declaration at the very end of a short spec. */
  lemma ShortLast(c: char, b: Arity, table: map<char, Arity>)
    requires ShortName(c)
    ensures ShortFrom([c] + Colons(b), table) == Declare(table, c, b)
  {
    var s := [c] + Colons(b);
    assert s[1..] == Colons(b) + [];
    ColonRunAfter(b, []);
    assert s[1 + |Colons(b)|..] == [];
  }

  // ------------------------------------------------------------------
  // Long specs
  // ------------------------------------------------------------------

  /** Reads one comma-separated field of a long spec: a non-empty name
      followed by at most two colons and nothing else. */
  function LongDecl(field: string): (r: Option<Decl<string>>)
    ensures r.Some? ==> r.value.name != "" && ':' !in r.value.name
    ensures r.Some? ==> field == r.value.name + Colons(r.value.arity)
  {
    var p := CharIndex(field, ':');
    var n := ColonRun(field[p..]);
    if p == 0 || p + n != |field| then None
    else match ArityOf(n)
      case None => None
      case Some(a) =>
        assert field[p..] == Colons(a);
        assert field == field[..p] + field[p..];
        Some(Decl(field[..p], a))
  }

  /** Reads the fields of a long spec into `table`; the names it adds are
      non-empty and free of colons, and free of commas when the fields
      are. */
  function LongFrom(fields: seq<string>, table: map<string, Arity>): (r: Option<map<string, Arity>>)
    ensures r.Some? ==> forall w :: w in r.value && w !in table ==> w != "" && ':' !in w
    ensures r.Some? && (forall k :: 0 <= k < |fields| ==> ',' !in fields[k]) ==>
      forall w :: w in r.value && w !in table ==> ',' !in w
  {
    if fields == [] then Some(table)
    else match LongDecl(fields[0])
      case None => None
      case Some(d) =>
        match Declare(table, d.name, d.arity)
        case None => None
        case Some(t) => LongFrom(fields[1..], t)
  }

  /** Compiles a long spec; the empty spec declares nothing, and an empty
      name (as in "a,,b" or a trailing comma) is malformed. */
  function CompileLong(spec: string): (r: Result<map<string, Arity>, OptionError>)
    ensures r.Success? ==> forall w :: w in r.value ==> w != "" && ':' !in w && ',' !in w
    ensures r.Failure? ==> r.error == BadSpec(spec)
  {
    if spec == "" then Success(map[])
    else match LongFrom(SplitExactAtFirstOf(spec, {','}), map[])
      case None => Failure(BadSpec(spec))
      case Some(t) => Success(t)
  }

  /** An empty field anywhere in a long spec makes it malformed. */
  lemma LongEmptyField(spec: string)
    requires spec != "" && "" in SplitExactAtFirstOf(spec, {','})
    ensures CompileLong(spec).Failure?
  {
    LongFromEmpty(SplitExactAtFirstOf(spec, {','}), map[]);
  }

  /** An empty name, from a leading comma, a trailing comma or two commas
      in a row, is malformed. */
  lemma LongEmptyName(pre: string, post: string)
    ensures CompileLong("," + post).Failure?
    ensures CompileLong(pre + ",").Failure?
    ensures CompileLong(pre + ",," + post).Failure?
  {
    LeadingCommaField(post);
    LongEmptyField("," + post);
    TrailingCommaField(pre);
    LongEmptyField(pre + ",");
    DoubleCommaField(pre, post);
    LongEmptyField(pre + ",," + post);
  }

  lemma SplitEmptyText()
    ensures SplitExactAtFirstOf("", {','}) == [""]
  {
    assert Find("", AnyOf({','})).None?;
  }

  lemma LeadingCommaField(post: string)
    ensures SplitExactAtFirstOf("," + post, {','}) == [""] + SplitExactAtFirstOf(post, {','})
  {
    SplitEmptyText();
    SplitAppendSep("", ',', post, {','});
    assert "" + [','] + post == "," + post;
  }

  lemma TrailingCommaField(pre: string)
    ensures "" in SplitExactAtFirstOf(pre + ",", {','})
  {
    SplitEmptyText();
    SplitAppendSep(pre, ',', "", {','});
    assert pre + [','] + "" == pre + ",";
    var r := SplitExactAtFirstOf(pre + ",", {','});
    assert r[|r| - 1] == "";
  }

  lemma DoubleCommaField(pre: string, post: string)
    ensures "" in SplitExactAtFirstOf(pre + ",," + post, {','})
  {
    LeadingCommaField(post);
    SplitAppendSep(pre, ',', "," + post, {','});
    CommaPair(pre, post);
    Middle(SplitExactAtFirstOf(pre, {','}), "", SplitExactAtFirstOf(post, {','}));
  }

  lemma CommaPair(pre: string, post: string)
    ensures pre + [','] + ("," + post) == pre + ",," + post
  {
  }

  lemma Middle<T>(u: seq<T>, x: T, v: seq<T>)
    ensures x in u + ([x] + v)
  {
    assert (u + ([x] + v))[|u|] == x;
  }

  lemma {:induction false} LongFromEmpty(fields: seq<string>, table: map<string, Arity>)
    requires "" in fields
    ensures LongFrom(fields, table) == None
  {
    if fields[0] != "" {
      assert "" in fields[1..] by {
        var k :| 0 <= k < |fields| && fields[k] == "";
        assert fields[1..][k - 1] == "";
      }
      match LongDecl(fields[0])
      case None =>
      case Some(d) =>
        match Declare(table, d.name, d.arity)
        case None =>
        case Some(t) =>
          LongFromEmpty(fields[1..], t);
    }
  }

  function LongTexts(ds: seq<Decl<string>>): (r: seq<string>)
    ensures |r| == |ds|
    ensures forall k :: 0 <= k < |ds| ==> r[k] == ds[k].name + Colons(ds[k].arity)
  {
    if ds == [] then [] else [ds[0].name + Colons(ds[0].arity)] + LongTexts(ds[1..])
  }

  /** A long spec for the declarations. */
  function RenderLong(ds: seq<Decl<string>>): string
  {
    Joined(LongTexts(ds), ",")
  }

  predicate LongName(w: string)
  {
    w != "" && ':' !in w && ',' !in w
  }

  lemma LongDeclOf(w: string, a: Arity)
    requires LongName(w)
    ensures LongDecl(w + Colons(a)) == Some(Decl(w, a))
  {
    var f := w + Colons(a);
    CharIndexAt(w, Colons(a), ':');
    assert f[|w|..] == Colons(a);
    assert ColonRun(Colons(a)) == |Colons(a)| by {
      ColonRunAfter(a, []);
      assert Colons(a) + [] == Colons(a);
    }
    assert f[..|w|] == w;
  }

  lemma {:induction false} CharIndexAt(w: string, t: string, c: char)
    requires c !in w && (t == [] || t[0] == c)
    ensures CharIndex(w + t, c) == |w|
  {
    if w != [] {
      assert w[0] in w;
      assert (w + t)[1..] == w[1..] + t;
      assert forall c :: c in w[1..] ==> c in w;
      CharIndexAt(w[1..], t, c);
    } else {
      assert w + t == t;
    }
  }

  lemma {:induction false} LongFromTexts(ds: seq<Decl<string>>, table: map<string, Arity>)
    requires Fresh(ds, table) && forall d :: d in ds ==> LongName(d.name)
    ensures LongFrom(LongTexts(ds), table) == Some(Insert(table, ds))
  {
    if ds != [] {
      var texts := LongTexts(ds);
      assert texts[1..] == LongTexts(ds[1..]);
      LongDeclOf(ds[0].name, ds[0].arity);
      var t := table[ds[0].name := ds[0].arity];
      FreshStep(ds, table);
      LongFromTexts(ds[1..], t);
    }
  }

  /** Writing declarations out as a long spec and compiling it gives their
      table back. */
  lemma LongRoundTrip(ds: seq<Decl<string>>)
    requires DistinctNames(ds) && forall d :: d in ds ==> LongName(d.name)
    ensures CompileLong(RenderLong(ds)) == Success(Insert(map[], ds))
  {
    LongFromTexts(ds, map[]);
    if ds != [] {
      var texts := LongTexts(ds);
      assert forall k :: 0 <= k < |texts| ==> ',' !in texts[k] by {
        forall k | 0 <= k < |texts| ensures ',' !in texts[k] {
          assert texts[k] == ds[k].name + Colons(ds[k].arity);
        }
      }
      SplitJoined(texts, ',');
      assert RenderLong(ds) != "" by {
        JoinedLength(texts, ",");
      }
    }
  }
}

=== FILE: OptionStore.dfy ===
/** The queries CL_Options answers from its store of parsed options. A
    query by character finds short options only; a query by name finds
    every option, short or long, whose name is exactly that string. Both
    look at the oldest matching entry first, so repeated extraction drains
    the values of an option in command-line order. */
module OptionStore {
  import opened Wrappers
  import opened OptionSpec
  import opened OptionParser
  import Conversion

  datatype Query = ByChar(c: char) | ByName(name: string)

  predicate Matches(e: Entry, q: Query)
  {
    match q
    case ByChar(c) => !e.long && e.name == [c]
    case ByName(w) => e.name == w
  }

  /** The position of the oldest entry the query finds. */
  function FirstMatch(es: seq<Entry>, q: Query): (r: Option<nat>)
    ensures r.Some? ==> r.value < |es| && Matches(es[r.value], q)
    ensures r.Some? ==> forall k :: 0 <= k < r.value ==> !Matches(es[k], q)
    ensures r.None? <==> forall k :: 0 <= k < |es| ==> !Matches(es[k], q)
  {
    if es == [] then None
    else if Matches(es[0], q) then Some(0)
    else match FirstMatch(es[1..], q)
      case None => None
      case Some(k) => Some(k + 1)
  }

  /** The store after extracting what the query finds. */
  function Remove(es: seq<Entry>, q: Query): (r: seq<Entry>)
    ensures FirstMatch(es, q).None? ==> r == es
  {
    if es == [] then []
    else if Matches(es[0], q) then es[1..]
    else [es[0]] + Remove(es[1..], q)
  }

  /** Extraction takes out the oldest matching entry and nothing else. */
  lemma {:induction false} RemoveFirst(es: seq<Entry>, q: Query, k: nat)
    requires k < |es| && Matches(es[k], q) && forall j :: 0 <= j < k ==> !Matches(es[j], q)
    ensures Remove(es, q) == es[..k] + es[k + 1..]
  {
    if k > 0 {
      var t := es[1..];
      assert !Matches(es[0], q);
      RemoveFirst(t, q, k - 1);
      Splice(es, k);
    }
  }

  lemma Splice(es: seq<Entry>, k: nat)
    requires 0 < k < |es|
    ensures [es[0]] + (es[1..][..k - 1] + es[1..][k..]) == es[..k] + es[k + 1..]
  {
  }

  /** The values the query finds, oldest first. */
  function Values(es: seq<Entry>, q: Query): seq<string>
  {
    if es == [] then []
    else (if Matches(es[0], q) then [es[0].value] else []) + Values(es[1..], q)
  }

  /** The entries the query does not find. */
  function Others(es: seq<Entry>, q: Query): seq<Entry>
  {
    if es == [] then []
    else (if Matches(es[0], q) then [] else [es[0]]) + Others(es[1..], q)
  }

  /** Extraction yields the oldest value the query finds and leaves the
      others in their order: draining a query reads its values in
      command-line order, and an empty drain means nothing is found. */
  lemma {:induction false} DrainOrder(es: seq<Entry>, q: Query)
    ensures FirstMatch(es, q).None? <==> Values(es, q) == []
    ensures FirstMatch(es, q).Some? ==>
      Values(es, q) == [es[FirstMatch(es, q).value].value] + Values(Remove(es, q), q)
  {
    if es != [] {
      DrainOrder(es[1..], q);
      if !Matches(es[0], q) && FirstMatch(es, q).Some? {
        var k := FirstMatch(es, q).value;
        assert FirstMatch(es[1..], q) == Some(k - 1);
        assert es[k] == es[1..][k - 1];
        var r := Remove(es[1..], q);
        assert Values([es[0]] + r, q) == Values(r, q) by {
          assert ([es[0]] + r)[1..] == r;
        }
      }
    }
  }

  /** Extraction leaves every entry the query does not find in place. */
  lemma {:induction false} RemoveKeepsOthers(es: seq<Entry>, q: Query)
    ensures Others(Remove(es, q), q) == Others(es, q)
  {
    if es != [] {
      RemoveKeepsOthers(es[1..], q);
      if !Matches(es[0], q) {
        assert ([es[0]] + Remove(es[1..], q))[1..] == Remove(es[1..], q);
      }
    }
  }

  /** A name query only finds that exact name: "q" does not find "qed". */
  lemma NameIsExact(es: seq<Entry>, w: string)
    ensures FirstMatch(es, ByName(w)).Some? <==> exists k :: 0 <= k < |es| && es[k].name == w
  {
    if FirstMatch(es, ByName(w)).None? {
      assert forall k :: 0 <= k < |es| ==> !Matches(es[k], ByName(w));
    }
  }

  /** The conversion of a value to an int for the typed queries. */
  function IntValue(v: string): (r: Result<int, OptionError>)
    ensures r.Success? <==> Conversion.ParseInt(v).Some?
    ensures r.Success? ==> r.value == Conversion.ParseInt(v).value && Conversion.IntMin <= r.value <= Conversion.IntMax
    ensures r.Failure? ==> r.error == BadConversion(v)
  {
    match Conversion.ParseInt(v)
    case None => Failure(BadConversion(v))
    case Some(n) => Success(n)
  }
}

=== FILE: ParseRuns.dfy ===
/** What a whole parse of a command line does: words that are no options
    only become mass arguments, the debug switch only turns debugging on,
    and a parse that stops at a failing token keeps exactly what a parse of
    the tokens before it would have stored. */
module ParseRuns {
  import opened Wrappers
  import opened OptionSpec
  import opened OptionParser
  import opened ParserLaws

  // ------------------------------------------------------------------
  // Words that are no options
  // ------------------------------------------------------------------

  /** Tokens that are all plain words are appended to the mass arguments,
      in order; the entries and the debug switch stay as they were and
      nothing fails. */
  lemma {:induction false} PlainOnly(spec: Spec, toks: seq<string>, i: nat, p: Parsed)
    requires i <= |toks| && AllPlain(toks[i..])
    ensures ParseFrom(spec, toks, i, p) == Outcome(p.(mass := p.mass + toks[i..]), None)
    decreases |toks| - i
  {
    if i == |toks| {
      assert p.mass + toks[i..] == p.mass;
    } else {
      assert Kind(toks[i]) == Plain by {
        assert toks[i..][0] == toks[i];
      }
      var q := p.(mass := p.mass + [toks[i]]);
      PlainToMass(spec, toks, i, p);
      ParseStep(spec, toks, i, p, q, i + 1);
      PlainTail(toks, i);
      PlainOnly(spec, toks, i + 1, q);
      assert q.mass + toks[i + 1..] == p.mass + toks[i..] by {
        assert toks[i..] == [toks[i]] + toks[i + 1..];
      }
    }
  }

  lemma PlainTail(toks: seq<string>, i: nat)
    requires i < |toks| && AllPlain(toks[i..])
    ensures AllPlain(toks[i + 1..])
  {
    var tail := toks[i + 1..];
    forall k | 0 <= k < |tail|
      ensures Kind(tail[k]) == Plain
    {
      assert tail[k] == toks[i..][k + 1];
    }
  }

  // ------------------------------------------------------------------
  // The debug switch
  // ------------------------------------------------------------------

  /** Debugging is on after a parse only if it was on before or the
      switch is among the tokens read. Conversely, a parse that reads all
      its tokens turns debugging on when the switch is among them: the
      switch starts with '-', so no option ever takes it as its value. */
  lemma {:induction false} DebugParse(spec: Spec, toks: seq<string>, i: nat, p: Parsed)
    requires i <= |toks|
    ensures var r := ParseFrom(spec, toks, i, p);
      (r.parsed.debug ==> p.debug || DebugToken in toks[i..])
      && (r.error == None && DebugToken in toks[i..] ==> r.parsed.debug)
    decreases |toks| - i
  {
    if i < |toks| {
      match StepToken(spec, toks, i, p)
      case Failure(e) =>
        ParseFail(spec, toks, i, p, e);
      case Success(v) =>
        var q, n := v.0, v.1;
        ParseStep(spec, toks, i, p, q, n);
        DebugParse(spec, toks, n, q);
        SuffixIn(toks, i, n);
        assert toks[i] in toks[i..] by {
          assert toks[i..][0] == toks[i];
        }
        if DebugToken in toks[i..] && toks[i] != DebugToken {
          DebugAhead(toks, i, n);
        }
    }
  }

  lemma SuffixIn(toks: seq<string>, i: nat, n: nat)
    requires i <= n <= |toks|
    ensures forall w :: w in toks[n..] ==> w in toks[i..]
  {
    forall w | w in toks[n..]
      ensures w in toks[i..]
    {
      var k :| 0 <= k < |toks[n..]| && toks[n..][k] == w;
      assert toks[i..][n - i + k] == w;
    }
  }

  /** The switch, when not the current token, lies beyond what a step
      reads: the only other token a step reads is a value, which does not
      start with '-'. */
  lemma DebugAhead(toks: seq<string>, i: nat, n: nat)
    requires i < n <= i + 2 && n <= |toks|
    requires n == i + 2 ==> !StartsWithDash(toks[i + 1])
    requires DebugToken in toks[i..] && toks[i] != DebugToken
    ensures DebugToken in toks[n..]
  {
    var k :| 0 <= k < |toks[i..]| && toks[i..][k] == DebugToken;
    assert toks[i + k] == DebugToken;
    if n == i + 2 && k == 1 {
      assert false;
    }
    assert toks[n..][i + k - n] == DebugToken;
  }

  /** The switch is never stored as a mass argument. */
  lemma DebugNotMass(spec: Spec, toks: seq<string>, i: nat, p: Parsed)
    requires i <= |toks|
    ensures DebugToken !in ParseFrom(spec, toks, i, p).parsed.mass[|p.mass|..]
  {
    MassIsPlain(spec, toks, i, p);
    assert Kind(DebugToken) == DebugSwitch;
  }

  // ------------------------------------------------------------------
  // A parse that stops
  // ------------------------------------------------------------------

  /** Where a parse from position i stops: at the token that fails, or at
      the end. */
  function StopPos(spec: Spec, toks: seq<string>, i: nat, p: Parsed): (j: nat)
    requires i <= |toks|
    ensures i <= j <= |toks|
    decreases |toks| - i
  {
    if i == |toks| then i
    else match StepToken(spec, toks, i, p)
      case Failure(_) => i
      case Success(v) => StopPos(spec, toks, v.1, v.0)
  }

  /** A parse fails exactly when it stops before the end; what it keeps is
      what a successful parse of the tokens before the failing one stores,
      and the failing token, read in that state, gives the error. */
  lemma {:induction false} ErrorPrefix(spec: Spec, toks: seq<string>, i: nat, p: Parsed)
    requires i <= |toks|
    ensures var r := ParseFrom(spec, toks, i, p);
      var j := StopPos(spec, toks, i, p);
      ParseFrom(spec, toks[..j], i, p) == Outcome(r.parsed, None)
      && (r.error.Some? <==> j < |toks|)
      && (j < |toks| ==> StepToken(spec, toks, j, r.parsed) == Failure(r.error.value))
    decreases |toks| - i
  {
    if i == |toks| {
      assert toks[..i] == toks;
    } else {
      match StepToken(spec, toks, i, p)
      case Failure(e) =>
        ParseFail(spec, toks, i, p, e);
      case Success(v) =>
        var q, n := v.0, v.1;
        ParseStep(spec, toks, i, p, q, n);
        ErrorPrefix(spec, toks, n, q);
        var j := StopPos(spec, toks, n, q);
        StepPrefix(spec, toks, i, p, j);
        ParseStep(spec, toks[..j], i, p, q, n);
    }
  }

  /** A step that reads no further than position m does the same on the
      tokens before m. */
  lemma StepPrefix(spec: Spec, toks: seq<string>, i: nat, p: Parsed, m: nat)
    requires i < m <= |toks|
    requires StepToken(spec, toks, i, p).Success? && StepToken(spec, toks, i, p).value.1 <= m
    ensures StepToken(spec, toks[..m], i, p) == StepToken(spec, toks, i, p)
  {
    var t := toks[i];
    assert toks[..m][i] == t;
    match Kind(t)
    case DebugSwitch =>
    case Plain =>
    case LongOption =>
      LongPrefix(spec, t[2..], toks, i + 1, m);
    case ShortCluster =>
      ClusterPrefix(spec, t[1..], 0, t[0] == '+', toks, i + 1, [], m);
  }

  lemma TakeValuePrefix(attached: string, toks: seq<string>, next: nat, a: Arity, m: nat)
    requires next <= m <= |toks|
    requires TakeValue(attached, toks, next, a).Some? && TakeValue(attached, toks, next, a).value.1 <= m
    ensures TakeValue(attached, toks[..m], next, a) == TakeValue(attached, toks, next, a)
  {
    if next < m {
      assert toks[..m][next] == toks[next];
    }
  }

  lemma LongPrefix(spec: Spec, body: string, toks: seq<string>, next: nat, m: nat)
    requires next <= m <= |toks|
    requires Long(spec, body, toks, next).Success? && Long(spec, body, toks, next).value.1 <= m
    ensures Long(spec, body, toks[..m], next) == Long(spec, body, toks, next)
  {
    var k := CharIndex(body, '=');
    var name := body[..k];
    var attached := if k < |body| then body[k + 1..] else "";
    match LongArity(spec, name)
    case None =>
    case Some(a) =>
      TakeValuePrefix(attached, toks, next, a, m);
  }

  lemma {:induction false} ClusterPrefix(spec: Spec, body: string, j: nat, pol: bool, toks: seq<string>,
                                         next: nat, acc: seq<Entry>, m: nat)
    requires j <= |body| && next <= m <= |toks|
    requires Cluster(spec, body, j, pol, toks, next, acc).Success?
    requires Cluster(spec, body, j, pol, toks, next, acc).value.1 <= m
    ensures Cluster(spec, body, j, pol, toks[..m], next, acc) == Cluster(spec, body, j, pol, toks, next, acc)
    decreases |body| - j
  {
    if j < |body| {
      var c := body[j];
      match ShortArity(spec, c)
      case None =>
      case Some(a) =>
        if a == NoArg {
          ClusterPrefix(spec, body, j + 1, pol, toks, next, acc + [Entry([c], "", pol, false)], m);
        } else {
          TakeValuePrefix(body[j + 1..], toks, next, a, m);
        }
    }
  }
}

=== FILE: ParserLaws.dfy ===
/** What CL_Options does with each kind of token, stated for a token at any
    position of the command line, and what a whole parse keeps. */
module ParserLaws {
  import opened Wrappers
  import opened OptionSpec
  import opened OptionParser

  // ------------------------------------------------------------------
  // Mass arguments keep their order
  // ------------------------------------------------------------------

  /** a occurs in b in order, possibly with gaps. */
  predicate Subseq(a: seq<string>, b: seq<string>)
    decreases |b|
  {
    a == [] || (b != [] && ((a[0] == b[0] && Subseq(a[1..], b[1..])) || Subseq(a, b[1..])))
  }

  lemma {:induction false} SubseqSkip(a: seq<string>, b: seq<string>, n: nat)
    requires n <= |b| && Subseq(a, b[n..])
    ensures Subseq(a, b)
    decreases n
  {
    if n > 0 {
      assert b[n..] == b[n - 1..][1..];
      SubseqSkip(a, b, n - 1);
    }
  }

  /** A parse goes on from where a successful token leaves it. */
  lemma ParseStep(spec: Spec, toks: seq<string>, i: nat, p: Parsed, q: Parsed, n: nat)
    requires i < |toks| && StepToken(spec, toks, i, p) == Success((q, n))
    ensures n <= |toks| && ParseFrom(spec, toks, i, p) == ParseFrom(spec, toks, n, q)
  {
  }

  /** A parse stops at a failing token, keeping what it had collected. */
  lemma ParseFail(spec: Spec, toks: seq<string>, i: nat, p: Parsed, e: OptionError)
    requires i < |toks| && StepToken(spec, toks, i, p) == Failure(e)
    ensures ParseFrom(spec, toks, i, p) == Outcome(p, Some(e))
  {
  }

  /** The mass arguments a parse adds are tokens of the command line, in
      command-line order. */
  lemma {:induction false} MassInOrder(spec: Spec, toks: seq<string>, i: nat, p: Parsed)
    requires i <= |toks|
    ensures var r := ParseFrom(spec, toks, i, p).parsed;
      Subseq(r.mass[|p.mass|..], toks[i..])
    decreases |toks| - i
  {
    if i < |toks| {
      var st := StepToken(spec, toks, i, p);
      if st.Success? {
        var q, n := st.value.0, st.value.1;
        var r := ParseFrom(spec, toks, n, q).parsed;
        assert ParseFrom(spec, toks, i, p).parsed == r;
        MassInOrder(spec, toks, n, q);
        MassStep(r.mass, p.mass, q.mass, toks, i, n, Kind(toks[i]) == Plain);
      }
    }
  }

  lemma MassStep(rm: seq<string>, pm: seq<string>, qm: seq<string>, toks: seq<string>, i: nat, n: nat, plain: bool)
    requires i < n <= |toks| && (plain ==> n == i + 1)
    requires qm == (if plain then pm + [toks[i]] else pm)
    requires |qm| <= |rm| && rm[..|qm|] == qm && Subseq(rm[|qm|..], toks[n..])
    ensures Subseq(rm[|pm|..], toks[i..])
  {
    if plain {
      assert rm[|pm|..] == [toks[i]] + rm[|qm|..];
      assert toks[i..][1..] == toks[n..];
    } else {
      assert toks[i..][n - i..] == toks[n..];
      SubseqSkip(rm[|pm|..], toks[i..], n - i);
    }
  }

  predicate AllPlain(ws: seq<string>)
  {
    forall k :: 0 <= k < |ws| ==> Kind(ws[k]) == Plain
  }

  /** No mass argument looks like an option. */
  lemma {:induction false} MassIsPlain(spec: Spec, toks: seq<string>, i: nat, p: Parsed)
    requires i <= |toks|
    ensures AllPlain(ParseFrom(spec, toks, i, p).parsed.mass[|p.mass|..])
    decreases |toks| - i
  {
    if i < |toks| {
      var st := StepToken(spec, toks, i, p);
      if st.Success? {
        var q, n := st.value.0, st.value.1;
        var r := ParseFrom(spec, toks, n, q).parsed;
        assert ParseFrom(spec, toks, i, p).parsed == r;
        MassIsPlain(spec, toks, n, q);
        if Kind(toks[i]) == Plain {
          assert r.mass[|p.mass|..] == [toks[i]] + r.mass[|q.mass|..];
        }
      }
    }
  }

  // ------------------------------------------------------------------
  // Single tokens: what StepToken does with the token at position i.
  // A parse continues from the state and position a successful step
  // returns, and stops with the error of a failing one.
  // ------------------------------------------------------------------

  /** The debug switch is swallowed: it only turns debugging on. */
  lemma DebugSwallowed(spec: Spec, toks: seq<string>, i: nat, p: Parsed)
    requires i < |toks| && toks[i] == DebugToken
    ensures StepToken(spec, toks, i, p) == Success((p.(debug := true), i + 1))
  {
  }

  /** A word that is no option becomes a mass argument. */
  lemma PlainToMass(spec: Spec, toks: seq<string>, i: nat, p: Parsed)
    requires i < |toks| && Kind(toks[i]) == Plain
    ensures StepToken(spec, toks, i, p) == Success((p.(mass := p.mass + [toks[i]]), i + 1))
  {
  }

  /** A token read as a cluster of short options: '+' or '-' followed by
      at least one character, where "-" is not followed by another '-'. */
  predicate ClusterToken(t: string)
  {
    |t| >= 2 && (t[0] == '+' || (t[0] == '-' && t[1] != '-'))
  }

  lemma ClusterKind(t: string)
    requires ClusterToken(t)
    ensures Kind(t) == ShortCluster
  {
    assert t != DebugToken by {
      if t[0] == '-' {
        assert DebugToken[1] == '-';
      }
    }
  }

  /** The entries a run of argument-free short options produces. */
  function Flags(cs: string, pol: bool): (r: seq<Entry>)
    ensures |r| == |cs|
  {
    seq(|cs|, k requires 0 <= k < |cs| => Entry([cs[k]], "", pol, false))
  }

  predicate AllNoArg(spec: Spec, cs: string)
  {
    forall k :: 0 <= k < |cs| ==> ShortArity(spec, cs[k]) == Some(NoArg)
  }

  /** Reading a cluster passes over characters without argument, storing
      each of them. */
  lemma {:induction false} ClusterSkip(spec: Spec, body: string, j: nat, m: nat, pol: bool,
                                       toks: seq<string>, next: nat, acc: seq<Entry>)
    requires j <= m <= |body| && next <= |toks| && AllNoArg(spec, body[j..m])
    ensures Cluster(spec, body, j, pol, toks, next, acc)
         == Cluster(spec, body, m, pol, toks, next, acc + Flags(body[j..m], pol))
    decreases m - j
  {
    if j < m {
      assert body[j..m][0] == body[j];
      var acc' := acc + [Entry([body[j]], "", pol, false)];
      assert body[j + 1..m] == body[j..m][1..];
      assert AllNoArg(spec, body[j + 1..m]);
      ClusterSkip(spec, body, j + 1, m, pol, toks, next, acc');
      assert acc' + Flags(body[j + 1..m], pol) == acc + Flags(body[j..m], pol);
    } else {
      assert acc + Flags(body[j..m], pol) == acc;
    }
  }

  /** A cluster of options without argument stores one entry per character
      and leaves the next token alone. */
  lemma ShortFlags(spec: Spec, toks: seq<string>, i: nat, p: Parsed)
    requires i < |toks| && ClusterToken(toks[i]) && AllNoArg(spec, toks[i][1..])
    ensures var t := toks[i];
      StepToken(spec, toks, i, p) == Success((p.(entries := p.entries + Flags(t[1..], t[0] == '+')), i + 1))
  {
    var t := toks[i];
    ClusterKind(t);
    assert t[1..][0..|t[1..]|] == t[1..];
    ClusterSkip(spec, t[1..], 0, |t[1..]|, t[0] == '+', toks, i + 1, []);
  }

  /** In strict mode, a cluster fails as a whole on the first character
      that is not declared, provided every character before it is an
      option without argument; nothing of that token is stored. */
  lemma ShortUnknown(spec: Spec, toks: seq<string>, i: nat, p: Parsed, m: nat)
    requires i < |toks| && ClusterToken(toks[i])
    requires m < |toks[i]| - 1 && AllNoArg(spec, toks[i][1..][..m]) && ShortArity(spec, toks[i][1 + m]) == None
    ensures StepToken(spec, toks, i, p) == Failure(UnknownOption([toks[i][1 + m]]))
  {
    var t := toks[i];
    ClusterKind(t);
    assert t[1..][0..m] == t[1..][..m];
    ClusterSkip(spec, t[1..], 0, m, t[0] == '+', toks, i + 1, []);
  }

  /** A short option that takes a value, after options without argument in
      the same cluster: the rest of its token is the value; when there is
      no rest, the next token is, unless it is missing or starts with '-';
      then a required value is an error and an optional one is empty. */
  lemma ShortValue(spec: Spec, toks: seq<string>, i: nat, p: Parsed, flags: string, c: char, v: string)
    requires i < |toks| && ClusterToken(toks[i])
    requires toks[i] == [toks[i][0]] + flags + [c] + v
    requires AllNoArg(spec, flags) && ShortArity(spec, c).Some? && ShortArity(spec, c).value != NoArg
    ensures var pol := toks[i][0] == '+';
      var stored := p.entries + Flags(flags, pol);
      StepToken(spec, toks, i, p) ==
        if v != "" then Success((p.(entries := stored + [Entry([c], v, pol, false)]), i + 1))
        else if i + 1 < |toks| && !StartsWithDash(toks[i + 1]) then
          Success((p.(entries := stored + [Entry([c], toks[i + 1], pol, false)]), i + 2))
        else if ShortArity(spec, c).value == Required then Failure(MissingArgument([c]))
        else Success((p.(entries := stored + [Entry([c], "", pol, false)]), i + 1))
  {
    ShortMatch(spec, toks, i, p, flags, c, v);
  }

  lemma ShortMatch(spec: Spec, toks: seq<string>, i: nat, p: Parsed, flags: string, c: char, v: string)
    requires i < |toks| && ClusterToken(toks[i])
    requires toks[i] == [toks[i][0]] + flags + [c] + v
    requires AllNoArg(spec, flags) && ShortArity(spec, c).Some? && ShortArity(spec, c).value != NoArg
    ensures var pol := toks[i][0] == '+';
      StepToken(spec, toks, i, p) ==
      match TakeValue(v, toks, i + 1, ShortArity(spec, c).value)
      case None => Failure(MissingArgument([c]))
      case Some(x) => Success((p.(entries := p.entries + Flags(flags, pol) + [Entry([c], x.0, pol, false)]), x.1))
  {
    var t := toks[i];
    var body := t[1..];
    var pol := t[0] == '+';
    var a := ShortArity(spec, c).value;
    var fl := Flags(flags, pol);
    var tv := TakeValue(v, toks, i + 1, a);
    assert Cluster(spec, body, 0, pol, toks, i + 1, []) ==
      (match tv
       case None => Failure(MissingArgument([c]))
       case Some(x) => Success((fl + [Entry([c], x.0, pol, false)], x.1))) by {
      var m := |flags|;
      assert body == flags + [c] + v;
      assert body[0..m] == flags;
      assert body[m] == c && body[m + 1..] == v;
      ClusterSkip(spec, body, 0, m, pol, toks, i + 1, []);
      assert [] + fl == fl;
    }
    ClusterKind(t);
    var cl := Cluster(spec, body, 0, pol, toks, i + 1, []);
    assert StepToken(spec, toks, i, p) ==
      (match cl
       case Failure(e) => Failure(e)
       case Success(w) => Success((p.(entries := p.entries + w.0), w.1)));
    if tv.Some? {
      assert p.entries + (fl + [Entry([c], tv.value.0, pol, false)]) == p.entries + fl + [Entry([c], tv.value.0, pol, false)];
    }
  }

  // ------------------------------------------------------------------
  // Long options
  // ------------------------------------------------------------------

  /** The token "--" + name + rest, where rest is empty or starts with
      '='. */
  predicate LongToken(t: string, name: string, rest: string)
  {
    t == "--" + name + rest && name != "" && '=' !in name
    && (rest == "" || rest[0] == '=') && t != DebugToken
  }

  lemma LongSplit(t: string, name: string, rest: string)
    requires LongToken(t, name, rest)
    ensures Kind(t) == LongOption
    ensures CharIndex(t[2..], '=') == |name| && t[2..][..|name|] == name
    ensures (if |name| < |t[2..]| then t[2..][|name| + 1..] else "") == (if rest == "" then "" else rest[1..])
  {
    var body := t[2..];
    assert body == name + rest;
    CharIndexAt(name, rest, '=');
    assert body[..|name|] == name;
    if rest != "" {
      assert body[|name| + 1..] == rest[1..];
    }
  }

  /** In strict mode an undeclared long option is an error; nothing of
      that token is stored. */
  lemma LongUnknown(spec: Spec, toks: seq<string>, i: nat, p: Parsed, name: string, rest: string)
    requires i < |toks| && LongToken(toks[i], name, rest) && LongArity(spec, name) == None
    ensures StepToken(spec, toks, i, p) == Failure(UnknownOption(name))
  {
    LongSplit(toks[i], name, rest);
  }

  /** A declared long option: one without argument stores "" and leaves
      the next token alone, even when "=value" is given; otherwise the text
      after the first '=' is the value when it is not empty; failing that,
      the next token is, unless it is missing or starts with '-'; then a
      required value is an error and an optional one is empty. */
  lemma LongValue(spec: Spec, toks: seq<string>, i: nat, p: Parsed, name: string, rest: string)
    requires i < |toks| && LongToken(toks[i], name, rest) && LongArity(spec, name).Some?
    ensures var a := LongArity(spec, name).value;
      var attached := if rest == "" then "" else rest[1..];
      var stored := p.entries;
      StepToken(spec, toks, i, p) ==
        if a == NoArg then Success((p.(entries := stored + [Entry(name, "", false, true)]), i + 1))
        else if attached != "" then Success((p.(entries := stored + [Entry(name, attached, false, true)]), i + 1))
        else if i + 1 < |toks| && !StartsWithDash(toks[i + 1]) then
          Success((p.(entries := stored + [Entry(name, toks[i + 1], false, true)]), i + 2))
        else if a == Required then Failure(MissingArgument(name))
        else Success((p.(entries := stored + [Entry(name, "", false, true)]), i + 1))
  {
    LongMatch(spec, toks, i, p, name, rest);
  }

  lemma LongMatch(spec: Spec, toks: seq<string>, i: nat, p: Parsed, name: string, rest: string)
    requires i < |toks| && LongToken(toks[i], name, rest) && LongArity(spec, name).Some?
    ensures StepToken(spec, toks, i, p) ==
      match TakeValue(if rest == "" then "" else rest[1..], toks, i + 1, LongArity(spec, name).value)
      case None => Failure(MissingArgument(name))
      case Some(x) => Success((p.(entries := p.entries + [Entry(name, x.0, false, true)]), x.1))
  {
    var t := toks[i];
    var tv := TakeValue(if rest == "" then "" else rest[1..], toks, i + 1, LongArity(spec, name).value);
    assert Kind(t) == LongOption;
    assert Long(spec, t[2..], toks, i + 1) ==
      (match tv
       case None => Failure(MissingArgument(name))
       case Some(x) => Success((Entry(name, x.0, false, true), x.1))) by {
      LongSplit(t, name, rest);
    }
  }
}

=== FILE: Tokenizer.dfy ===
/** The tokenizer behind `CL_Options::parse_args(string)`: one free-form
    command string becomes a list of tokens. White space separates tokens,
    except inside a double-quoted span, which may also sit in the middle of
    a token; the quotes themselves are dropped, and an empty quoted span
    still makes a (possibly empty) token. A backslash escapes a double
    quote (the backslash is dropped, the quote kept as text); any other
    backslash is an ordinary character. */
module Tokenizer {
  import opened Wrappers
  import opened UnicodeStrings

  /** The scanner's state between two characters: the tokens finished so
      far, the text of the token being read, whether a token has been
      started at all, whether a quoted span is open, and whether the
      previous character was a backslash still waiting to see whether it
      escapes a quote. */
  datatype Lexer = Lexer(tokens: seq<string>, cur: string, open: bool, quoted: bool, escape: bool)

  const Start := Lexer([], "", false, false, false)

  /** The text the current token holds so far, a pending backslash
      included. */
  function Pending(st: Lexer): string
  {
    if st.escape then st.cur + "\\" else st.cur
  }

  /** Feeds one character to the scanner. */
  function Step(st: Lexer, c: char): (r: Lexer)
  {
    if st.escape && c == '"' then
      st.(cur := st.cur + "\"", escape := false)
    else
      var st := if st.escape then st.(cur := st.cur + "\\", escape := false) else st;
      if c == '\\' then st.(open := true, escape := true)
      else if c == '"' then st.(open := true, quoted := !st.quoted)
      else if !st.quoted && c in WhiteSpace then
        if st.open then st.(tokens := st.tokens + [st.cur], cur := "", open := false) else st
      else st.(cur := st.cur + [c], open := true)
  }

  /** Feeds a whole string to the scanner, first character first. */
  function Run(st: Lexer, s: string): Lexer
    decreases |s|
  {
    if s == [] then st else Run(Step(st, s[0]), s[1..])
  }

  /** The tokens, once the input is exhausted: an unfinished token is
      kept, a dangling backslash included. */
  function Finish(st: Lexer): seq<string>
  {
    if st.open then st.tokens + [Pending(st)] else st.tokens
  }

  /** The tokens of a command string, in order. */
  function Tokens(line: string): seq<string>
  {
    Finish(Run(Start, line))
  }

  /** Scans the line one character at a time. */
  method Tokenize(line: string) returns (tokens: seq<string>)
    ensures tokens == Tokens(line)
  {
    var st := Start;
    var i := 0;
    while i < |line|
      invariant 0 <= i <= |line|
      invariant st == Run(Start, line[..i])
    {
      RunAppend(Start, line[..i], [line[i]]);
      assert line[..i + 1] == line[..i] + [line[i]];
      st := Step(st, line[i]);
      i := i + 1;
    }
    assert line[..|line|] == line;
    tokens := Finish(st);
  }

  /** Scanning a concatenation is scanning one part after the other. */
  lemma {:induction false} RunAppend(st: Lexer, a: string, b: string)
    ensures Run(st, a + b) == Run(Run(st, a), b)
    decreases |a|
  {
    if a == [] {
      assert a + b == b;
    } else {
      assert (a + b)[0] == a[0] && (a + b)[1..] == a[1..] + b;
      RunAppend(Step(st, a[0]), a[1..], b);
    }
  }

  /** A character that neither opens or closes a quote nor, outside
      quotes, separates tokens. */
  predicate Ordinary(c: char, quoted: bool)
  {
    c != '"' && (quoted || c !in WhiteSpace)
  }

  /** An ordinary character extends the current token by itself, whether
      or not a backslash is pending. */
  lemma StepOrdinary(st: Lexer, c: char)
    requires Ordinary(c, st.quoted)
    ensures var r := Step(st, c);
      r.tokens == st.tokens && r.quoted == st.quoted && r.open
      && Pending(r) == Pending(st) + [c] && r.escape == (c == '\\')
  {
    if st.escape {
      assert st.cur + "\\" + [c] == st.cur + "\\" + [c];
    }
  }

  /** A run of ordinary characters extends the current token by that
      run. */
  lemma {:induction false} RunOrdinary(st: Lexer, w: string)
    requires forall k :: 0 <= k < |w| ==> Ordinary(w[k], st.quoted)
    ensures var r := Run(st, w);
      r.tokens == st.tokens && r.quoted == st.quoted && r.open == (st.open || w != [])
      && Pending(r) == Pending(st) + w
      && r.escape == (if w == [] then st.escape else w[|w| - 1] == '\\')
    decreases |w|
  {
    if w == [] {
      assert Pending(st) + w == Pending(st);
    } else {
      var st1 := Step(st, w[0]);
      StepOrdinary(st, w[0]);
      assert forall k :: 0 <= k < |w[1..]| ==> Ordinary(w[1..][k], st1.quoted) by {
        forall k | 0 <= k < |w[1..]| ensures Ordinary(w[1..][k], st1.quoted) {
          assert w[1..][k] == w[k + 1];
        }
      }
      RunOrdinary(st1, w[1..]);
      assert Pending(st) + [w[0]] + w[1..] == Pending(st) + w;
      if w[1..] != [] {
        assert w[1..][|w[1..]| - 1] == w[|w| - 1];
      }
    }
  }

  /** Outside quotes, white space ends the current token, if one was
      started. */
  lemma StepBlank(st: Lexer, c: char)
    requires !st.quoted && (st.escape ==> st.open) && (st.open || st.cur == "") && c in WhiteSpace
    ensures Step(st, c) == Lexer(st.tokens + (if st.open then [Pending(st)] else []), "", false, false, false)
  {
  }

  /** A quote outside an escape toggles the quoted span and starts a
      token. */
  lemma StepQuote(st: Lexer)
    requires !st.escape
    ensures Step(st, '"') == st.(open := true, quoted := !st.quoted)
  {
  }

  /** A scanner that holds no unfinished text. */
  predicate Idle(st: Lexer)
  {
    st.cur == "" && !st.open && !st.quoted && !st.escape
  }

  /** A plain word: no white space and no double quote. */
  predicate Word(s: string)
  {
    forall k :: 0 <= k < |s| ==> Ordinary(s[k], false)
  }

  /** Scanning words joined by blanks finishes every word but the last,
      and holds the last as the current token. */
  lemma {:induction false} RunJoined(st: Lexer, ws: seq<string>)
    requires Idle(st) && |ws| > 0
    requires forall k :: 0 <= k < |ws| ==> ws[k] != "" && Word(ws[k])
    ensures var r := Run(st, Joined(ws, " "));
      r.tokens == st.tokens + ws[..|ws| - 1] && r.open && !r.quoted && Pending(r) == ws[|ws| - 1]
    decreases |ws|
  {
    RunOrdinary(st, ws[0]);
    assert Pending(st) + ws[0] == ws[0];
    if |ws| > 1 {
      var rest := Joined(ws[1..], " ");
      assert Joined(ws, " ") == ws[0] + (" " + rest);
      RunAppend(st, ws[0], " " + rest);
      var st1 := Run(st, ws[0]);
      assert (" " + rest)[0] == ' ' && (" " + rest)[1..] == rest;
      StepBlank(st1, ' ');
      var st2 := Step(st1, ' ');
      assert st2.tokens == st.tokens + [ws[0]];
      RunJoined(st2, ws[1..]);
      assert st.tokens + [ws[0]] + ws[1..][..|ws[1..]| - 1] == st.tokens + ws[..|ws| - 1];
    }
  }

  /** Non-empty plain words joined by blanks tokenize back into those
      words. */
  lemma TokensJoined(ws: seq<string>)
    requires forall k :: 0 <= k < |ws| ==> ws[k] != "" && Word(ws[k])
    ensures Tokens(Joined(ws, " ")) == ws
  {
    if ws != [] {
      RunJoined(Start, ws);
      SnocLast(ws);
    }
  }

  lemma AppendAssoc<T>(a: seq<T>, b: seq<T>, c: seq<T>)
    ensures a + b + c == a + (b + c)
  {
  }

  lemma SnocLast<T>(xs: seq<T>)
    requires xs != []
    ensures xs[..|xs| - 1] + [xs[|xs| - 1]] == xs
  {
  }

  predicate NoQuote(s: string)
  {
    forall k :: 0 <= k < |s| ==> s[k] != '"'
  }

  /** Outside quotes, a token has been started exactly when it holds
      text. */
  predicate Settled(st: Lexer)
  {
    !st.quoted && (st.escape ==> st.open) && (st.open <==> Pending(st) != [])
  }

  /** Blank-free text. */
  predicate NoBlank(x: string)
  {
    forall k :: 0 <= k < |x| ==> x[k] !in WhiteSpace
  }

  /** Without double quotes, scanning from a settled state finishes the
      pending text and the rest of the input as the non-empty fields
      between white-space characters. */
  lemma {:induction false} RunPlain(st: Lexer, s: string)
    requires Settled(st) && NoQuote(s) && NoBlank(Pending(st))
    ensures Finish(Run(st, s)) == st.tokens + NonEmpty(ExactPieces(Pending(st) + s, AnyOf(WhiteSpace)))
    decreases |s|, 1
  {
    if s == [] {
      PlainEnd(st, s);
    } else if s[0] in WhiteSpace {
      PlainBlank(st, s);
    } else {
      PlainChar(st, s);
    }
  }

  lemma PlainEnd(st: Lexer, s: string)
    requires Settled(st) && NoBlank(Pending(st)) && s == []
    ensures Finish(Run(st, s)) == st.tokens + NonEmpty(ExactPieces(Pending(st) + s, AnyOf(WhiteSpace)))
  {
    var x := Pending(st);
    var sep := AnyOf(WhiteSpace);
    assert x + s == x;
    assert forall j :: 0 <= j <= |x| ==> !SepAt(x, j, sep);
    assert Find(x, sep).None?;
    NonEmptyCons(x, []);
  }

  lemma {:induction false} PlainBlank(st: Lexer, s: string)
    requires Settled(st) && NoQuote(s) && NoBlank(Pending(st))
    requires s != [] && s[0] in WhiteSpace
    ensures Finish(Run(st, s)) == st.tokens + NonEmpty(ExactPieces(Pending(st) + s, AnyOf(WhiteSpace)))
    decreases |s|, 0
  {
    var x := Pending(st);
    var rest := ExactPieces(s[1..], AnyOf(WhiteSpace));
    BlankPieces(x, s);
    NonEmptyCons(x, rest);
    StepBlank(st, s[0]);
    var st1 := Step(st, s[0]);
    assert st1.tokens == st.tokens + (if x == "" then [] else [x]);
    assert Run(st, s) == Run(st1, s[1..]);
    assert Pending(st1) + s[1..] == s[1..];
    NoQuoteTail(s);
    RunPlain(st1, s[1..]);
    AppendAssoc(st.tokens, if x == "" then [] else [x], NonEmpty(rest));
  }

  /** Blank-free text before a blank is the first exact field. */
  lemma BlankPieces(x: string, s: string)
    requires NoBlank(x) && s != [] && s[0] in WhiteSpace
    ensures ExactPieces(x + s, AnyOf(WhiteSpace)) == [x] + ExactPieces(s[1..], AnyOf(WhiteSpace))
  {
    var sep := AnyOf(WhiteSpace);
    var t := x + s;
    forall j | 0 <= j < |x| ensures !SepAt(t, j, sep) {
      assert t[j] == x[j];
    }
    assert t[|x|] == s[0];
    assert SepAt(t, |x|, sep);
    assert Find(t, sep) == Some(|x|);
    assert t[..|x|] == x && t[|x| + 1..] == s[1..];
  }

  lemma {:induction false} PlainChar(st: Lexer, s: string)
    requires Settled(st) && NoQuote(s) && NoBlank(Pending(st))
    requires s != [] && s[0] !in WhiteSpace
    ensures Finish(Run(st, s)) == st.tokens + NonEmpty(ExactPieces(Pending(st) + s, AnyOf(WhiteSpace)))
    decreases |s|, 0
  {
    StepOrdinary(st, s[0]);
    var st1 := Step(st, s[0]);
    assert Pending(st) + s == Pending(st1) + s[1..];
    NoQuoteTail(s);
    RunPlain(st1, s[1..]);
  }

  lemma NoQuoteTail(s: string)
    requires s != [] && NoQuote(s)
    ensures NoQuote(s[1..])
  {
    forall k | 0 <= k < |s| - 1 ensures s[1..][k] != '"' {
      assert s[1..][k] == s[k + 1];
    }
  }

  /** Without double quotes, tokenizing is `split` at white space (the
      non-empty fields between white-space characters); backslashes are
      kept as they are. */
  lemma TokensPlain(s: string)
    requires NoQuote(s)
    ensures Tokens(s) == NonEmpty(SplitExact(s))
  {
    RunPlain(Start, s);
    assert Pending(Start) + s == s;
  }

  /** A string that does not end in a backslash, so that a quote after it
      is not escaped. */
  predicate NoTrailingBackslash(s: string)
  {
    s == [] || s[|s| - 1] != '\\'
  }

  /** A quoted span, possibly after a plain word, is one token, with its
      quotes removed and its white space kept: -d"-fiets --appel peer "
      is the single token -d-fiets --appel peer followed by a blank. */
  lemma QuotedToken(p: string, w: string)
    requires Word(p) && NoTrailingBackslash(p)
    requires NoQuote(w) && NoTrailingBackslash(w)
    ensures Tokens(p + "\"" + w + "\"") == [p + w]
  {
    RunOrdinary(Start, p);
    var st1 := Run(Start, p);
    assert Pending(st1) == p && !st1.escape;
    StepQuote(st1);
    var st2 := Step(st1, '"');
    assert forall k :: 0 <= k < |w| ==> Ordinary(w[k], st2.quoted);
    RunOrdinary(st2, w);
    var st3 := Run(st2, w);
    assert Pending(st3) == p + w && !st3.escape;
    StepQuote(st3);
    var st4 := Step(st3, '"');
    OneChar(st3, '"');
    OneChar(st1, '"');
    RunAppend(st1, "\"", w);
    RunAppend(Start, p, "\"" + w);
    RunAppend(Start, p + "\"" + w, "\"");
    assert Run(Start, p + "\"" + w) == st3 by {
      assert p + "\"" + w == p + ("\"" + w);
    }
    assert Run(Start, p + "\"" + w + "\"") == st4;
    assert Pending(st4) == p + w && st4.open && st4.tokens == [];
  }

  lemma OneChar(st: Lexer, c: char)
    ensures Run(st, [c]) == Step(st, c)
  {
    assert [c][1..] == [];
  }

  /** A word followed by a backslash leaves the backslash pending. */
  lemma RunBackslash(p: string)
    requires Word(p)
    ensures var st := Run(Start, p + "\\");
      st.escape && st.cur == p && st.open && st.tokens == [] && !st.quoted
  {
    var b := p + "\\";
    assert Word(b);
    RunOrdinary(Start, b);
    var st1 := Run(Start, b);
    assert st1.escape && Pending(st1) == p + "\\";
    assert st1.cur == Pending(st1)[..|Pending(st1)| - 1] == p;
  }

  /** A backslash before a quote yields the quote as text, even after
      another backslash. */
  lemma EscapedQuote(p: string, q: string)
    requires Word(p) && Word(q)
    ensures Tokens(p + "\\\"" + q) == [p + "\"" + q]
  {
    var b := p + "\\";
    RunBackslash(p);
    var st1 := Run(Start, b);
    var st2 := Step(st1, '"');
    assert st2 == st1.(cur := p + "\"", escape := false);
    OneChar(st1, '"');
    RunOrdinary(st2, q);
    RunAppend(Start, b, "\"");
    RunAppend(Start, b + "\"", q);
    assert p + "\\\"" + q == b + "\"" + q;
  }
}

=== FILE: Trimming.dfy ===
/** The trimming and padding helpers of include/ticcutils/Unicode.h:
    `ltrim`, `rtrim`, `utrim` and `pad`. */
module Trimming {
  /** The default characters removed by `utrim`, `ltrim` and `rtrim`
      ("\r\n\t "); only membership in that string matters, so it is
      modelled as a set. */
  const TrimSet: set<char> := {'\r', '\n', '\t', ' '}

  // ------------------------------------------------------------------
  // utrim, ltrim, rtrim
  // ------------------------------------------------------------------

  /** The first position at or after i whose character is not in `cut`
      (|s| when there is none). */
  function FirstKept(s: string, cut: set<char>, i: nat): (r: nat)
    requires i <= |s|
    ensures i <= r <= |s|
    ensures forall k :: i <= k < r ==> s[k] in cut
    ensures r < |s| ==> s[r] !in cut
    decreases |s| - i
  {
    if i < |s| && s[i] in cut then FirstKept(s, cut, i + 1) else i
  }

  /** The end of the last character before j that is not in `cut` (0 when
      there is none). */
  function LastKept(s: string, cut: set<char>, j: nat): (r: nat)
    requires j <= |s|
    ensures r <= j
    ensures forall k :: r <= k < j ==> s[k] in cut
    ensures r > 0 ==> s[r - 1] !in cut
    decreases j
  {
    if j > 0 && s[j - 1] in cut then LastKept(s, cut, j - 1) else j
  }

  /** `ltrim`: drops the leading characters that belong to `cut`. */
  function LTrim(s: string, cut: set<char> := TrimSet): (r: string)
    ensures |r| <= |s| && r == s[|s| - |r|..]
    ensures forall k :: 0 <= k < |s| - |r| ==> s[k] in cut
    ensures r == [] || r[0] !in cut
  {
    s[FirstKept(s, cut, 0)..]
  }

  /** `rtrim`: drops the trailing characters that belong to `cut`. */
  function RTrim(s: string, cut: set<char> := TrimSet): (r: string)
    ensures |r| <= |s| && r == s[..|r|]
    ensures forall k :: |r| <= k < |s| ==> s[k] in cut
    ensures r == [] || r[|r| - 1] !in cut
  {
    s[..LastKept(s, cut, |s|)]
  }

  /** s[i..j] is what remains of s once the characters of `cut` are
      removed from both ends. */
  predicate TrimmedAt(s: string, cut: set<char>, i: nat, j: nat)
  {
    i <= j <= |s|
    && (forall k :: 0 <= k < i ==> s[k] in cut)
    && (forall k :: j <= k < |s| ==> s[k] in cut)
    && (i < j ==> s[i] !in cut && s[j - 1] !in cut)
  }

  /** There is only one way to trim a string. */
  lemma TrimmedUnique(s: string, cut: set<char>, i1: nat, j1: nat, i2: nat, j2: nat)
    requires TrimmedAt(s, cut, i1, j1) && TrimmedAt(s, cut, i2, j2)
    ensures s[i1..j1] == s[i2..j2]
  {
  }

  /** `utrim`: drops the characters of `cut` at both ends; the middle is
      kept as it is, and a string made only of such characters becomes
      empty. */
  function UTrim(s: string, cut: set<char> := TrimSet): (r: string)
    ensures exists i: nat, j: nat :: TrimmedAt(s, cut, i, j) && r == s[i..j]
  {
    var i := FirstKept(s, cut, 0);
    var j := LastKept(s, cut, |s|);
    if i < j then
      assert TrimmedAt(s, cut, i, j);
      s[i..j]
    else
      assert TrimmedAt(s, cut, 0, 0);
      []
  }

  // ------------------------------------------------------------------
  // pad
  // ------------------------------------------------------------------

  function Repeat(c: char, n: nat): (r: string)
    ensures |r| == n && forall i :: 0 <= i < n ==> r[i] == c
  {
    if n == 0 then [] else [c] + Repeat(c, n - 1)
  }

  /** `pad`: fills on the left with `fill` up to `width`; a string at least
      that wide is returned unchanged. */
  function Pad(s: string, width: int, fill: char := ' '): (r: string)
    ensures |r| == if width > |s| then width else |s|
    ensures r[|r| - |s|..] == s
    ensures forall i :: 0 <= i < |r| - |s| ==> r[i] == fill
  {
    if width > |s| then Repeat(fill, width - |s|) + s else s
  }
}

/** Laws relating the three trims. */
module TrimLaws {
  import opened Trimming

  /** Whatever way s[i..j] is obtained by trimming both ends, it is what
      `utrim` returns. */
  lemma UTrimAt(s: string, cut: set<char>, i: nat, j: nat)
    requires TrimmedAt(s, cut, i, j)
    ensures UTrim(s, cut) == s[i..j]
  {
    var i0 := FirstKept(s, cut, 0);
    var j0 := LastKept(s, cut, |s|);
    if i0 < j0 {
      TrimmedUnique(s, cut, i0, j0, i, j);
    } else {
      TrimmedUnique(s, cut, 0, 0, i, j);
    }
  }

  /** Trimming the left end, then the right end, trims both ends. */
  lemma LeftThenRightTrimmed(s: string, cut: set<char>, l: string, r: string, i: nat)
    requires l == LTrim(s, cut) && r == RTrim(l, cut) && i == |s| - |l|
    ensures TrimmedAt(s, cut, i, i + |r|) && r == s[i..i + |r|]
  {
    assert r == s[i..i + |r|];
    forall k | i + |r| <= k < |s| ensures s[k] in cut {
      assert s[k] == l[k - i];
    }
    if r != [] {
      assert s[i] == r[0] == l[0];
      assert s[i + |r| - 1] == r[|r| - 1];
    }
  }

  /** Trimming the right end, then the left end, trims both ends. */
  lemma RightThenLeftTrimmed(s: string, cut: set<char>, m: string, r: string, i: nat)
    requires m == RTrim(s, cut) && r == LTrim(m, cut) && i == |m| - |r|
    ensures TrimmedAt(s, cut, i, |m|) && r == s[i..|m|]
  {
    assert r == s[i..|m|];
    forall k | 0 <= k < i ensures s[k] in cut {
      assert s[k] == m[k];
    }
    if r != [] {
      assert s[i] == r[0];
      assert r[|r| - 1] == m[|m| - 1] == s[|m| - 1];
    }
  }

  /** `utrim` is `ltrim` followed by `rtrim`. */
  lemma UTrimIsLeftThenRight(s: string, cut: set<char>)
    ensures UTrim(s, cut) == RTrim(LTrim(s, cut), cut)
  {
    var l := LTrim(s, cut);
    var r := RTrim(l, cut);
    LeftThenRightTrimmed(s, cut, l, r, |s| - |l|);
    UTrimAt(s, cut, |s| - |l|, |s| - |l| + |r|);
  }

  /** `utrim` is also `rtrim` followed by `ltrim`. */
  lemma UTrimIsRightThenLeft(s: string, cut: set<char>)
    ensures UTrim(s, cut) == LTrim(RTrim(s, cut), cut)
  {
    var m := RTrim(s, cut);
    var r := LTrim(m, cut);
    var i := |m| - |r|;
    assert TrimmedAt(s, cut, i, |m|) && r == s[i..|m|] by {
      RightThenLeftTrimmed(s, cut, m, r, i);
    }
    UTrimAt(s, cut, i, |m|);
  }

  /** Trimming twice is trimming once. */
  lemma UTrimIdempotent(s: string, cut: set<char>)
    ensures UTrim(UTrim(s, cut), cut) == UTrim(s, cut)
  {
    var r := UTrim(s, cut);
    var i: nat, j: nat :| TrimmedAt(s, cut, i, j) && r == s[i..j];
    assert TrimmedAt(r, cut, 0, |r|) by {
      if r != [] {
        assert r[0] == s[i] && r[|r| - 1] == s[j - 1];
      }
    }
    UTrimAt(r, cut, 0, |r|);
  }
}

=== FILE: UniHash.dfy ===
/** The UnicodeHash interning table: every distinct key gets the next
    number, starting at 1; a key seen before gets its old number back,
    and a number can be looked up to give its key. */
module UniHash {

  class UnicodeHash {
    /** The keys in the order they were first seen: key `keys[i]` has
        number i + 1. */
    var keys: seq<string>
    /** The number of every key seen. */
    var ids: map<string, nat>

    /** The numbers are 1, 2, ... in order of arrival, one per key. */
    ghost predicate Valid()
      reads this
    {
      (forall w :: w in ids <==> w in keys)
      && (forall i :: 0 <= i < |keys| ==> keys[i] in ids && ids[keys[i]] == i + 1)
    }

    constructor ()
      ensures Valid() && keys == [] && ids == map[]
    {
      keys, ids := [], map[];
    }

    /** `hash`: the number of the key, given out now if the key is new. */
    method Hash(key: string) returns (id: nat)
      requires Valid()
      modifies this
      ensures Valid()
      ensures 1 <= id <= |keys| && keys[id - 1] == key
      ensures key in old(ids) ==> id == old(ids)[key] && keys == old(keys)
      ensures key !in old(ids) ==> id == |old(keys)| + 1 && keys == old(keys) + [key]
    {
      if key in ids {
        id := ids[key];
        assert key in keys;
        var i :| 0 <= i < |keys| && keys[i] == key;
        assert id == i + 1;
      } else {
        assert key !in keys;
        keys := keys + [key];
        ids := ids[key := |keys|];
        id := |keys|;
        forall i | 0 <= i < |keys| - 1 ensures keys[i] in ids && ids[keys[i]] == i + 1 {
          assert keys[i] != key;
        }
      }
    }

    /** `num_of_entries`: how many keys have a number. */
    method NumOfEntries() returns (n: nat)
      requires Valid()
      ensures n == |keys| && n == |ids|
    {
      DistinctCount();
      n := |keys|;
    }

    /** `reverse_lookup`: the key with number id, or "" when no key has
        that number. */
    method ReverseLookup(id: nat) returns (key: string)
      requires Valid()
      ensures 1 <= id <= |keys| ==> key in ids && ids[key] == id
      ensures !(1 <= id <= |keys|) ==> key == "" && forall w :: w in ids ==> ids[w] != id
    {
      if 1 <= id <= |keys| {
        key := keys[id - 1];
      } else {
        key := "";
        forall w | w in ids ensures ids[w] != id {
          var i :| 0 <= i < |keys| && keys[i] == w;
        }
      }
    }

    /** The keys are distinct, so there are as many numbers as keys. */
    lemma DistinctCount()
      requires Valid()
      ensures |ids| == |keys|
    {
      var s := set i | 0 <= i < |keys| :: keys[i];
      assert ids.Keys == s;
      CountDistinct(keys, ids);
    }
  }

  /** A sequence whose elements have distinct positions in a map has as
      many distinct elements as positions. */
  lemma {:induction false} CountDistinct(keys: seq<string>, ids: map<string, nat>)
    requires forall i :: 0 <= i < |keys| ==> keys[i] in ids && ids[keys[i]] == i + 1
    ensures |set i | 0 <= i < |keys| :: keys[i]| == |keys|
  {
    if keys != [] {
      var n := |keys| - 1;
      var front := keys[..n];
      var last := keys[n];
      assert forall i :: 0 <= i < |front| ==> front[i] in ids && ids[front[i]] == i + 1;
      CountDistinct(front, ids);
      var s := set i | 0 <= i < |front| :: front[i];
      assert last !in s;
      assert (set i | 0 <= i < |keys| :: keys[i]) == s + {last};
    }
  }
}

=== FILE: UnicodeStrings.dfy ===
/** The split / trim / join / pad helpers declared in ticcutils/Unicode.h.
    A UnicodeString is modelled as a string of abstract characters, one
    character per UTF-16 code unit. */
module UnicodeStrings {
  import opened Wrappers

  /** The separators of `split` and `split_exact` (" \r\t\n"). A string of
      separator characters is modelled as a set: only membership matters. */
  const WhiteSpace: set<char> := {' ', '\r', '\t', '\n'}

  // ------------------------------------------------------------------
  // join
  // ------------------------------------------------------------------

  /** What `join` computes: the elements, with `sep` between each two
      consecutive ones. */
  function Joined(vec: seq<string>, sep: string): string
  {
    if |vec| == 0 then ""
    else if |vec| == 1 then vec[0]
    else vec[0] + sep + Joined(vec[1..], sep)
  }

  lemma {:induction false} JoinedSnoc(vec: seq<string>, sep: string, x: string)
    requires |vec| > 0
    ensures Joined(vec + [x], sep) == Joined(vec, sep) + sep + x
  {
    if |vec| == 1 {
      assert (vec + [x])[1..] == [x];
    } else {
      assert (vec + [x])[1..] == vec[1..] + [x];
      JoinedSnoc(vec[1..], sep, x);
    }
  }

  /** `join`: appends each element to a result, preceded by `sep` for
      every element but the first. */
  method Join(vec: seq<string>, sep: string := " ") returns (result: string)
    ensures result == Joined(vec, sep)
  {
    result := "";
    var i := 0;
    while i < |vec|
      invariant 0 <= i <= |vec|
      invariant result == Joined(vec[..i], sep)
    {
      assert vec[..i + 1] == vec[..i] + [vec[i]];
      if i != 0 {
        JoinedSnoc(vec[..i], sep, vec[i]);
        result := result + sep;
      }
      result := result + vec[i];
      i := i + 1;
    }
    assert vec[..|vec|] == vec;
  }

  /** Sum of the lengths of the elements. */
  function TotalLength(vec: seq<string>): nat
  {
    if vec == [] then 0 else |vec[0]| + TotalLength(vec[1..])
  }

  /** n elements give n - 1 separators: the length of a join. */
  lemma {:induction false} JoinedLength(vec: seq<string>, sep: string)
    requires |vec| > 0
    ensures |Joined(vec, sep)| == TotalLength(vec) + (|vec| - 1) * |sep|
  {
    if |vec| > 1 {
      JoinedLength(vec[1..], sep);
      assert (|vec| - 1) * |sep| == (|vec[1..]| - 1) * |sep| + |sep|;
    }
  }

  // ------------------------------------------------------------------
  // Separators and the search for the next one
  // ------------------------------------------------------------------

  /** `split_at` splits at a substring, `split_at_first_of` at any
      character of a set. */
  datatype Separator = AnyOf(chars: set<char>) | Text(pattern: string)

  function SepLen(sep: Separator): nat
  {
    match sep
    case AnyOf(_) => 1
    case Text(p) => |p|
  }

  /** Whether an occurrence of the separator starts at position i of s. An
      empty pattern occurs nowhere. */
  predicate SepAt(s: string, i: nat, sep: Separator)
  {
    match sep
    case AnyOf(cs) => i < |s| && s[i] in cs
    case Text(p) => |p| > 0 && i + |p| <= |s| && s[i..i + |p|] == p
  }

  /** No separator occurs in t. */
  predicate Free(t: string, sep: Separator)
  {
    forall j :: 0 <= j < |t| ==> !SepAt(t, j, sep)
  }

  lemma SepAtPrefix(s: string, i: nat, j: nat, sep: Separator)
    requires i <= |s| && SepAt(s[..i], j, sep)
    ensures SepAt(s, j, sep)
  {
    if sep.Text? {
      assert s[..i][j..j + |sep.pattern|] == s[j..j + |sep.pattern|];
    }
  }

  function FindFrom(s: string, sep: Separator, i: nat): (r: Option<nat>)
    requires i <= |s|
    ensures r.Some? ==> i <= r.value && SepLen(sep) > 0 && r.value + SepLen(sep) <= |s|
    ensures r.Some? ==> SepAt(s, r.value, sep)
    ensures r.Some? ==> forall j :: i <= j < r.value ==> !SepAt(s, j, sep)
    ensures r.None? ==> forall j :: i <= j <= |s| ==> !SepAt(s, j, sep)
    decreases |s| - i
  {
    if i == |s| then None
    else if SepAt(s, i, sep) then Some(i)
    else FindFrom(s, sep, i + 1)
  }

  /** The first occurrence of the separator in s. */
  function Find(s: string, sep: Separator): (r: Option<nat>)
    ensures r.Some? ==> SepLen(sep) > 0 && r.value + SepLen(sep) <= |s| && SepAt(s, r.value, sep)
    ensures r.Some? ==> forall j :: 0 <= j < r.value ==> !SepAt(s, j, sep)
    ensures r.None? ==> forall j :: 0 <= j <= |s| ==> !SepAt(s, j, sep)
  {
    FindFrom(s, sep, 0)
  }

  /** The text before the first occurrence holds no occurrence. */
  lemma FindPrefixFree(s: string, sep: Separator, i: nat)
    requires Find(s, sep) == Some(i)
    ensures Free(s[..i], sep)
  {
    forall j | 0 <= j < i && SepAt(s[..i], j, sep)
      ensures false
    {
      SepAtPrefix(s, i, j, sep);
    }
  }

  // ------------------------------------------------------------------
  // split_exact_at, split_exact_at_first_of, split_exact
  // ------------------------------------------------------------------

  /** Every separator occurrence ends a field, empty fields included. */
  function ExactPieces(s: string, sep: Separator): (r: seq<string>)
    ensures |r| >= 1
    decreases |s|
  {
    match Find(s, sep)
    case None => [s]
    case Some(i) => [s[..i]] + ExactPieces(s[i + SepLen(sep)..], sep)
  }

  /** No field holds a separator. */
  lemma {:induction false} ExactPiecesFree(s: string, sep: Separator)
    ensures forall t :: t in ExactPieces(s, sep) ==> Free(t, sep)
    decreases |s|
  {
    match Find(s, sep)
    case None =>
    case Some(i) =>
      FindPrefixFree(s, sep, i);
      ExactPiecesFree(s[i + SepLen(sep)..], sep);
  }

  function SplitExactAt(s: string, sep: string): (r: seq<string>)
    ensures |r| >= 1 && forall t :: t in r ==> Free(t, Text(sep))
  {
    ExactPiecesFree(s, Text(sep));
    ExactPieces(s, Text(sep))
  }

  function SplitExactAtFirstOf(s: string, seps: set<char>): (r: seq<string>)
    ensures |r| >= 1 && forall t :: t in r ==> forall j :: 0 <= j < |t| ==> t[j] !in seps
  {
    var r := ExactPieces(s, AnyOf(seps));
    ExactPiecesFree(s, AnyOf(seps));
    assert forall t :: t in r ==> forall j :: 0 <= j < |t| ==> t[j] !in seps by {
      forall t, j | t in r && 0 <= j < |t| ensures t[j] !in seps {
        assert !SepAt(t, j, AnyOf(seps));
      }
    }
    r
  }

  /** `split_exact(s)` is `split_exact_at_first_of(s, " \r\t\n")`. */
  function SplitExact(s: string): seq<string>
  {
    SplitExactAtFirstOf(s, WhiteSpace)
  }

  /** Number of characters of s that belong to cs. */
  function CountOf(s: string, cs: set<char>): nat
  {
    if s == [] then 0 else (if s[0] in cs then 1 else 0) + CountOf(s[1..], cs)
  }

  lemma {:induction false} CountOfAppend(a: string, b: string, cs: set<char>)
    ensures CountOf(a + b, cs) == CountOf(a, cs) + CountOf(b, cs)
  {
    if a == [] {
      assert a + b == b;
    } else {
      assert (a + b)[0] == a[0];
      assert (a + b)[1..] == a[1..] + b;
      CountOfAppend(a[1..], b, cs);
    }
  }

  lemma {:induction false} CountOfFree(a: string, cs: set<char>)
    requires Free(a, AnyOf(cs))
    ensures CountOf(a, cs) == 0
  {
    if a != [] {
      assert !SepAt(a, 0, AnyOf(cs));
      assert Free(a[1..], AnyOf(cs)) by {
        forall j | 0 <= j < |a[1..]| ensures !SepAt(a[1..], j, AnyOf(cs)) {
          assert !SepAt(a, j + 1, AnyOf(cs));
        }
      }
      CountOfFree(a[1..], cs);
    }
  }

  /** k separator characters give k + 1 fields. */
  lemma {:induction false} ExactFieldCount(s: string, cs: set<char>)
    ensures |SplitExactAtFirstOf(s, cs)| == CountOf(s, cs) + 1
    decreases |s|
  {
    match Find(s, AnyOf(cs))
    case None =>
      CountOfFree(s, cs);
    case Some(i) =>
      var rest := s[i + 1..];
      assert s == s[..i] + ([s[i]] + rest);
      CountOfAppend(s[..i], [s[i]] + rest, cs);
      CountOfAppend([s[i]], rest, cs);
      FindPrefixFree(s, AnyOf(cs), i);
      CountOfFree(s[..i], cs);
      ExactFieldCount(rest, cs);
  }

  /** Joining the exact fields with the (one-character) separator gives the
      input back. */
  lemma {:induction false} JoinExactFields(s: string, c: char)
    ensures Joined(SplitExactAtFirstOf(s, {c}), [c]) == s
    decreases |s|
  {
    match Find(s, AnyOf({c}))
    case None =>
    case Some(i) =>
      var rest := s[i + 1..];
      JoinExactFields(rest, c);
      var tail := ExactPieces(rest, AnyOf({c}));
      assert ([s[..i]] + tail)[1..] == tail;
      assert s == s[..i] + [c] + rest;
  }

  /** Splitting a join at its one-character separator gives the elements
      back, when no element contains that character. */
  lemma {:induction false} SplitJoined(vec: seq<string>, c: char)
    requires |vec| > 0
    requires forall k :: 0 <= k < |vec| ==> c !in vec[k]
    ensures SplitExactAtFirstOf(Joined(vec, [c]), {c}) == vec
  {
    var sep := AnyOf({c});
    var x := vec[0];
    assert Free(x, sep) by {
      forall j | 0 <= j < |x| ensures !SepAt(x, j, sep) {
        assert x[j] in x;
      }
    }
    if |vec| == 1 {
      assert Find(x, sep).None?;
    } else {
      var s := Joined(vec, [c]);
      var rest := Joined(vec[1..], [c]);
      assert s == x + [c] + rest;
      assert s[..|x|] == x;
      assert SepAt(s, |x|, sep);
      assert forall j :: 0 <= j < |x| ==> !SepAt(s, j, sep) by {
        forall j | 0 <= j < |x| ensures !SepAt(s, j, sep) {
          assert s[j] == x[j];
          assert !SepAt(x, j, sep);
        }
      }
      assert Find(s, sep) == Some(|x|);
      assert s[|x| + 1..] == rest;
      SplitJoined(vec[1..], c);
    }
  }

  /** The separator characters of s, in order: the characters at which
      `split_exact_at_first_of` ends a field. */
  function SepChars(s: string, seps: set<char>): (cs: seq<char>)
    ensures forall j :: 0 <= j < |cs| ==> cs[j] in seps
    decreases |s|
  {
    match Find(s, AnyOf(seps))
    case None => []
    case Some(i) => [s[i]] + SepChars(s[i + 1..], seps)
  }

  /** The fields with the separator characters between them. */
  function Interleaved(fields: seq<string>, cs: seq<char>): string
    requires |fields| == |cs| + 1
    decreases |cs|
  {
    if cs == [] then fields[0] else fields[0] + [cs[0]] + Interleaved(fields[1..], cs[1..])
  }

  /** The exact fields and the separator characters between them rebuild
      the input: one separator character fewer than fields, each in `seps`. */
  lemma {:induction false} ExactFieldsRebuild(s: string, seps: set<char>)
    ensures |SplitExactAtFirstOf(s, seps)| == |SepChars(s, seps)| + 1
    ensures Interleaved(SplitExactAtFirstOf(s, seps), SepChars(s, seps)) == s
    decreases |s|
  {
    match Find(s, AnyOf(seps))
    case None =>
    case Some(i) =>
      var rest := s[i + 1..];
      ExactPiecesAt(s, seps, i);
      ExactFieldsRebuild(rest, seps);
      var fields, cs := SplitExactAtFirstOf(s, seps), SepChars(s, seps);
      assert fields[0] == s[..i] && fields[1..] == SplitExactAtFirstOf(rest, seps);
      assert cs[0] == s[i] && cs[1..] == SepChars(rest, seps);
      assert s == s[..i] + [s[i]] + rest;
  }

  /** Conversely, fields free of separator characters, interleaved with
      separator characters, split back into those fields and characters. */
  lemma {:induction false} SplitInterleaved(fields: seq<string>, cs: seq<char>, seps: set<char>)
    requires |fields| == |cs| + 1
    requires forall k, j :: 0 <= k < |fields| && 0 <= j < |fields[k]| ==> fields[k][j] !in seps
    requires forall j :: 0 <= j < |cs| ==> cs[j] in seps
    ensures SplitExactAtFirstOf(Interleaved(fields, cs), seps) == fields
    ensures SepChars(Interleaved(fields, cs), seps) == cs
    decreases |cs|
  {
    var x := fields[0];
    CharsFree(x, seps);
    if cs == [] {
      assert Find(x, AnyOf(seps)).None?;
    } else {
      var rest := Interleaved(fields[1..], cs[1..]);
      var s := x + [cs[0]] + rest;
      assert Interleaved(fields, cs) == s;
      FindAfterFree(x, cs[0], rest, seps);
      ExactPiecesAt(s, seps, |x|);
      assert s[..|x|] == x && s[|x|] == cs[0] && s[|x| + 1..] == rest;
      FieldsTailFree(fields, seps);
      SplitInterleaved(fields[1..], cs[1..], seps);
      HeadTail(fields);
      HeadTail(cs);
    }
  }

  lemma FieldsTailFree(fields: seq<string>, seps: set<char>)
    requires |fields| > 0
    requires forall k, j :: 0 <= k < |fields| && 0 <= j < |fields[k]| ==> fields[k][j] !in seps
    ensures forall k, j :: 0 <= k < |fields[1..]| && 0 <= j < |fields[1..][k]| ==> fields[1..][k][j] !in seps
  {
    forall k, j | 0 <= k < |fields[1..]| && 0 <= j < |fields[1..][k]|
      ensures fields[1..][k][j] !in seps
    {
      assert fields[1..][k] == fields[k + 1];
    }
  }

  lemma HeadTail<T>(a: seq<T>)
    requires |a| > 0
    ensures [a[0]] + a[1..] == a
  {
  }

  lemma CharsFree(x: string, seps: set<char>)
    requires forall j :: 0 <= j < |x| ==> x[j] !in seps
    ensures Free(x, AnyOf(seps))
  {
  }

  /** In x + [c] + rest, with x free of separators, the first separator is c. */
  lemma FindAfterFree(x: string, c: char, rest: string, seps: set<char>)
    requires Free(x, AnyOf(seps)) && c in seps
    ensures Find(x + [c] + rest, AnyOf(seps)) == Some(|x|)
  {
    var s := x + [c] + rest;
    assert SepAt(s, |x|, AnyOf(seps));
    forall j | 0 <= j < |x|
      ensures !SepAt(s, j, AnyOf(seps))
    {
      assert s[j] == x[j];
      assert !SepAt(x, j, AnyOf(seps));
    }
  }

  /** Splitting text joined at a separator character splits each side:
      the fields of a, then the fields of b. */
  lemma {:induction false} SplitAppendSep(a: string, c: char, b: string, seps: set<char>)
    requires c in seps
    ensures SplitExactAtFirstOf(a + [c] + b, seps) == SplitExactAtFirstOf(a, seps) + SplitExactAtFirstOf(b, seps)
    decreases |a|
  {
    match Find(a, AnyOf(seps))
    case None =>
      SplitAppendFree(a, c, b, seps);
    case Some(i) =>
      SplitAppendCons(a, c, b, seps, i);
      SplitAppendSep(a[i + 1..], c, b, seps);
      ConsAppend(a[..i], SplitExactAtFirstOf(a[i + 1..], seps), SplitExactAtFirstOf(b, seps));
  }

  lemma ConsAppend<T>(x: T, y: seq<T>, z: seq<T>)
    ensures [x] + (y + z) == ([x] + y) + z
  {
  }

  lemma SplitAppendFree(a: string, c: char, b: string, seps: set<char>)
    requires c in seps && Find(a, AnyOf(seps)).None?
    ensures SplitExactAtFirstOf(a + [c] + b, seps) == SplitExactAtFirstOf(a, seps) + SplitExactAtFirstOf(b, seps)
  {
    var s := a + [c] + b;
    FindAfterFree(a, c, b, seps);
    ExactPiecesAt(s, seps, |a|);
    assert s[..|a|] == a && s[|a| + 1..] == b;
  }

  lemma SplitAppendCons(a: string, c: char, b: string, seps: set<char>, i: nat)
    requires Find(a, AnyOf(seps)) == Some(i)
    ensures i < |a|
    ensures SplitExactAtFirstOf(a + [c] + b, seps) == [a[..i]] + SplitExactAtFirstOf(a[i + 1..] + [c] + b, seps)
    ensures SplitExactAtFirstOf(a, seps) == [a[..i]] + SplitExactAtFirstOf(a[i + 1..], seps)
  {
    var s := a + [c] + b;
    FindExtend(a, [c] + b, seps, i);
    assert s == a + ([c] + b);
    ExactPiecesAt(s, seps, i);
    ExactPiecesAt(a, seps, i);
    assert s[..i] == a[..i];
    assert s[i + 1..] == a[i + 1..] + [c] + b;
  }

  /** A separator character found in a is still the first one once text
      is appended. */
  lemma FindExtend(a: string, t: string, seps: set<char>, i: nat)
    requires Find(a, AnyOf(seps)) == Some(i)
    ensures Find(a + t, AnyOf(seps)) == Some(i)
  {
    var s := a + t;
    assert SepAt(s, i, AnyOf(seps));
    forall j | 0 <= j < i
      ensures !SepAt(s, j, AnyOf(seps))
    {
      assert s[j] == a[j];
      assert !SepAt(a, j, AnyOf(seps));
    }
  }

  /** One step of the exact split at a separator character. */
  lemma ExactPiecesAt(s: string, seps: set<char>, i: nat)
    requires Find(s, AnyOf(seps)) == Some(i)
    ensures i < |s|
    ensures SplitExactAtFirstOf(s, seps) == [s[..i]] + SplitExactAtFirstOf(s[i + 1..], seps)
    ensures SepChars(s, seps) == [s[i]] + SepChars(s[i + 1..], seps)
  {
  }

  lemma CharSepAt(s: string, i: nat, c: char)
    ensures SepAt(s, i, Text([c])) == SepAt(s, i, AnyOf({c}))
  {
    if i + 1 <= |s| {
      assert s[i..i + 1] == [s[i]];
    }
  }

  lemma {:induction false} CharFind(s: string, c: char, i: nat)
    requires i <= |s|
    ensures FindFrom(s, Text([c]), i) == FindFrom(s, AnyOf({c}), i)
    decreases |s| - i
  {
    if i < |s| {
      CharSepAt(s, i, c);
      CharFind(s, c, i + 1);
    }
  }

  /** A one-character pattern splits exactly as the set holding only that
      character. */
  lemma {:induction false} SplitExactAtChar(s: string, c: char)
    ensures SplitExactAt(s, [c]) == SplitExactAtFirstOf(s, {c})
    decreases |s|
  {
    CharFind(s, c, 0);
    var f := Find(s, AnyOf({c}));
    if f.Some? {
      SplitExactAtChar(s[f.value + 1..], c);
    }
  }

  /** Joining the fields of `split_exact_at` with the pattern gives the
      input back, whatever the pattern. */
  lemma {:induction false} JoinExactAtFields(s: string, sep: string)
    ensures Joined(SplitExactAt(s, sep), sep) == s
    decreases |s|
  {
    match Find(s, Text(sep))
    case None =>
    case Some(i) =>
      var rest := s[i + |sep|..];
      JoinExactAtFields(rest, sep);
      var tail := ExactPieces(rest, Text(sep));
      assert ([s[..i]] + tail)[1..] == tail;
      assert s[i..i + |sep|] == sep;
      assert s == s[..i] + sep + rest;
  }

  // ------------------------------------------------------------------
  // split_at, split_at_first_of, split (empty fields dropped, piece limit)
  // ------------------------------------------------------------------

  /** The non-empty fields in order. */
  function NonEmpty(fields: seq<string>): (r: seq<string>)
    ensures forall t :: t in r ==> t != "" && t in fields
  {
    if fields == [] then []
    else (if fields[0] == "" then [] else [fields[0]]) + NonEmpty(fields[1..])
  }

  /** The pieces of s, given that k pieces were already produced: empty
      fields are skipped, and once `limit - 1` pieces exist the untouched
      remainder is the last one. A limit of 0 means no limit. */
  function Pieces(s: string, sep: Separator, limit: nat, k: nat): seq<string>
    decreases |s|
  {
    if limit > 0 && k + 1 >= limit then (if s == "" then [] else [s])
    else match Find(s, sep)
      case None => if s == "" then [] else [s]
      case Some(i) =>
        var rest := s[i + SepLen(sep)..];
        if i == 0 then Pieces(rest, sep, limit, k)
        else [s[..i]] + Pieces(rest, sep, limit, k + 1)
  }

  /** One step of `Pieces` past a separator found at i. */
  lemma PiecesStep(s: string, sep: Separator, limit: nat, k: nat, i: nat)
    requires !(limit > 0 && k + 1 >= limit) && Find(s, sep) == Some(i)
    ensures i + SepLen(sep) <= |s|
    ensures i == 0 ==> Pieces(s, sep, limit, k) == Pieces(s[i + SepLen(sep)..], sep, limit, k)
    ensures i > 0 ==> Pieces(s, sep, limit, k) == [s[..i]] + Pieces(s[i + SepLen(sep)..], sep, limit, k + 1)
  {
    if i == 0 {
      PiecesSkip(s, sep, limit, k);
    } else {
      PiecesCons(s, sep, limit, k, i);
    }
  }

  lemma PiecesSkip(s: string, sep: Separator, limit: nat, k: nat)
    requires !(limit > 0 && k + 1 >= limit) && Find(s, sep) == Some(0)
    ensures SepLen(sep) <= |s| && Pieces(s, sep, limit, k) == Pieces(s[SepLen(sep)..], sep, limit, k)
  {
  }

  lemma PiecesCons(s: string, sep: Separator, limit: nat, k: nat, i: nat)
    requires !(limit > 0 && k + 1 >= limit) && Find(s, sep) == Some(i) && i > 0
    ensures i + SepLen(sep) <= |s|
    ensures Pieces(s, sep, limit, k) == [s[..i]] + Pieces(s[i + SepLen(sep)..], sep, limit, k + 1)
  {
  }

  lemma NonEmptyCons(x: string, tail: seq<string>)
    ensures NonEmpty([x] + tail) == (if x == "" then [] else [x]) + NonEmpty(tail)
  {
    assert ([x] + tail)[1..] == tail;
  }

  /** Without a limit the splitters keep exactly the non-empty exact fields. */
  lemma {:induction false} UnlimitedPieces(s: string, sep: Separator, k: nat)
    ensures Pieces(s, sep, 0, k) == NonEmpty(ExactPieces(s, sep))
    decreases |s|
  {
    match Find(s, sep)
    case None =>
      NonEmptyCons(s, []);
    case Some(i) =>
      var rest := s[i + SepLen(sep)..];
      var tail := ExactPieces(rest, sep);
      assert ExactPieces(s, sep) == [s[..i]] + tail;
      NonEmptyCons(s[..i], tail);
      PiecesStep(s, sep, 0, k, i);
      if i == 0 {
        assert s[..i] == "";
        UnlimitedPieces(rest, sep, k);
      } else {
        UnlimitedPieces(rest, sep, k + 1);
      }
  }

  /** With a limit, at most `limit` pieces are produced. */
  lemma {:induction false} PiecesBound(s: string, sep: Separator, limit: nat, k: nat)
    requires 0 < limit && k < limit
    ensures k + |Pieces(s, sep, limit, k)| <= limit
    decreases |s|
  {
    if k + 1 < limit {
      match Find(s, sep)
      case None =>
      case Some(i) =>
        PiecesBound(s[i + SepLen(sep)..], sep, limit, if i == 0 then k else k + 1);
    }
  }

  predicate IsSuffix(t: string, s: string)
  {
    |t| <= |s| && s[|s| - |t|..] == t
  }

  /** With a limit, the pieces are those produced without one, except that
      when the limit is reached the last piece may differ from the rest of
      the unlimited pieces. */
  lemma {:induction false} LimitedPieces(s: string, sep: Separator, limit: nat, k: nat, r: seq<string>, u: seq<string>)
    requires 0 < limit && k < limit
    requires r == Pieces(s, sep, limit, k) && u == Pieces(s, sep, 0, k)
    ensures r == u || (k + |r| == limit && 1 <= |r| <= |u| + 1 && r[..|r| - 1] == u[..|r| - 1])
    decreases |s|
  {
    if k + 1 < limit {
      var f := Find(s, sep);
      if f.Some? {
        var i := f.value;
        var rest := s[i + SepLen(sep)..];
        PiecesStep(s, sep, limit, k, i);
        PiecesStep(s, sep, 0, k, i);
        if i == 0 {
          LimitedPieces(rest, sep, limit, k, r, u);
        } else {
          var r', u' := Pieces(rest, sep, limit, k + 1), Pieces(rest, sep, 0, k + 1);
          LimitedPieces(rest, sep, limit, k + 1, r', u');
          if r' != u' {
            ConsPrefix(s[..i], r', u');
          }
        }
      }
    } else if s == "" {
      assert Find(s, sep).None?;
    }
  }

  lemma ConsPrefix(x: string, r: seq<string>, u: seq<string>)
    requires 1 <= |r| <= |u| + 1 && r[..|r| - 1] == u[..|r| - 1]
    ensures ([x] + r)[..|r|] == ([x] + u)[..|r|]
  {
    assert ([x] + r)[..|r|] == [x] + r[..|r| - 1];
    assert ([x] + u)[..|r|] == [x] + u[..|r| - 1];
  }

  lemma SuffixTrans(t: string, m: string, s: string)
    requires IsSuffix(t, m) && IsSuffix(m, s)
    ensures IsSuffix(t, s)
  {
    assert s[|s| - |t|..] == s[|s| - |m|..][|m| - |t|..];
  }

  /** The last piece `last` starts right after an occurrence of the
      separator at `m`, and `front` are the pieces (from count `k` on) of
      the text before that occurrence. */
  predicate RemainderAt(s: string, sep: Separator, k: nat, front: seq<string>, last: string, m: nat)
  {
    m + SepLen(sep) <= |s| && SepAt(s, m, sep)
    && s[m + SepLen(sep)..] == last && Pieces(s[..m], sep, 0, k) == front
  }

  /** Where the separator before the last piece sits once the limit is
      reached: the occurrence after which `Pieces` stops splitting. */
  function RemainderSep(s: string, sep: Separator, limit: nat, k: nat): nat
    decreases |s|
  {
    if limit > 0 && k + 1 >= limit then 0
    else match Find(s, sep)
      case None => 0
      case Some(i) =>
        if i == 0 then SepLen(sep) + RemainderSep(s[SepLen(sep)..], sep, limit, k)
        else if limit > 0 && k + 2 >= limit then i
        else i + SepLen(sep) + RemainderSep(s[i + SepLen(sep)..], sep, limit, k + 1)
  }

  /** When the limit is reached, the last piece is the untouched remainder
      of the input. If the limit was reached before any separator was
      passed, it is the whole input; otherwise it starts right after the
      separator at `RemainderSep`, and the pieces before it are the pieces
      of the text before that separator. */
  lemma {:induction false} LimitedRemainder(s: string, sep: Separator, limit: nat, k: nat, r: seq<string>)
    requires 0 < limit && k < limit
    requires r == Pieces(s, sep, limit, k) && k + |r| == limit
    ensures |r| >= 1 && IsSuffix(r[|r| - 1], s)
    ensures k + 1 == limit ==> r == [s]
    ensures k + 1 < limit ==> RemainderAt(s, sep, k, r[..|r| - 1], r[|r| - 1], RemainderSep(s, sep, limit, k))
    decreases |s|
  {
    if k + 1 < limit {
      var f := Find(s, sep);
      if f.None? {
        assert false;
      }
      var i := f.value;
      var rest := s[i + SepLen(sep)..];
      PiecesStep(s, sep, limit, k, i);
      if i == 0 {
        LimitedRemainder(rest, sep, limit, k, r);
        RemainderSkipStep(s, sep, limit, k, r);
      } else {
        var r' := Pieces(rest, sep, limit, k + 1);
        LimitedRemainder(rest, sep, limit, k + 1, r');
        if k + 2 == limit {
          RemainderFirstStep(s, sep, limit, k, i, r);
        } else {
          RemainderConsStep(s, sep, limit, k, i, r, r');
        }
      }
      RemainderSuffix(s, sep, k, r[..|r| - 1], r[|r| - 1], RemainderSep(s, sep, limit, k));
    } else {
      assert r == [s];
    }
  }

  lemma RemainderSkipStep(s: string, sep: Separator, limit: nat, k: nat, r: seq<string>)
    requires 0 < limit && k + 1 < limit && Find(s, sep) == Some(0) && |r| >= 1
    requires RemainderAt(s[SepLen(sep)..], sep, k, r[..|r| - 1], r[|r| - 1], RemainderSep(s[SepLen(sep)..], sep, limit, k))
    ensures RemainderAt(s, sep, k, r[..|r| - 1], r[|r| - 1], RemainderSep(s, sep, limit, k))
  {
    var m' := RemainderSep(s[SepLen(sep)..], sep, limit, k);
    RemainderSepSkip(s, sep, limit, k);
    RemainderSkip(s, sep, k, RemainderSep(s, sep, limit, k), m', r[..|r| - 1], r[|r| - 1]);
  }

  lemma RemainderFirstStep(s: string, sep: Separator, limit: nat, k: nat, i: nat, r: seq<string>)
    requires 0 < limit && k + 2 == limit && Find(s, sep) == Some(i) && i > 0
    requires i + SepLen(sep) <= |s| && r == [s[..i]] + [s[i + SepLen(sep)..]]
    ensures RemainderAt(s, sep, k, r[..|r| - 1], r[|r| - 1], RemainderSep(s, sep, limit, k))
  {
    RemainderSepLast(s, sep, limit, k, i);
    assert r[..|r| - 1] == [s[..i]];
    RemainderFirst(s, sep, k, i, RemainderSep(s, sep, limit, k), r[|r| - 1]);
  }

  lemma RemainderConsStep(s: string, sep: Separator, limit: nat, k: nat, i: nat, r: seq<string>, r': seq<string>)
    requires 0 < limit && k + 2 < limit && Find(s, sep) == Some(i) && i > 0
    requires i + SepLen(sep) <= |s| && r == [s[..i]] + r' && |r'| >= 1
    requires RemainderAt(s[i + SepLen(sep)..], sep, k + 1, r'[..|r'| - 1], r'[|r'| - 1],
                         RemainderSep(s[i + SepLen(sep)..], sep, limit, k + 1))
    ensures RemainderAt(s, sep, k, r[..|r| - 1], r[|r| - 1], RemainderSep(s, sep, limit, k))
  {
    var m' := RemainderSep(s[i + SepLen(sep)..], sep, limit, k + 1);
    RemainderSepCons(s, sep, limit, k, i);
    assert r[..|r| - 1] == [s[..i]] + r'[..|r'| - 1];
    RemainderCons(s, sep, k, i, RemainderSep(s, sep, limit, k), m', r'[..|r'| - 1], r'[|r'| - 1]);
  }

  /** The steps of `RemainderSep`: past a leading separator, at the
      separator that ends the last counted piece, and past a first piece. */
  lemma RemainderSepSkip(s: string, sep: Separator, limit: nat, k: nat)
    requires 0 < limit && k + 1 < limit && Find(s, sep) == Some(0)
    ensures RemainderSep(s, sep, limit, k) == SepLen(sep) + RemainderSep(s[SepLen(sep)..], sep, limit, k)
  {
  }

  lemma RemainderSepLast(s: string, sep: Separator, limit: nat, k: nat, i: nat)
    requires 0 < limit && k + 2 == limit && Find(s, sep) == Some(i) && i > 0
    ensures RemainderSep(s, sep, limit, k) == i
  {
  }

  lemma RemainderSepCons(s: string, sep: Separator, limit: nat, k: nat, i: nat)
    requires 0 < limit && k + 2 < limit && Find(s, sep) == Some(i) && i > 0
    ensures RemainderSep(s, sep, limit, k) == i + SepLen(sep) + RemainderSep(s[i + SepLen(sep)..], sep, limit, k + 1)
  {
  }

  lemma RemainderSuffix(s: string, sep: Separator, k: nat, front: seq<string>, last: string, m: nat)
    requires RemainderAt(s, sep, k, front, last, m)
    ensures IsSuffix(last, s)
  {
  }

  lemma DropDrop(s: string, a: nat, b: nat)
    requires a + b <= |s|
    ensures s[a..][b..] == s[a + b..]
  {
  }

  /** An occurrence in a suffix of s is an occurrence in s. */
  lemma SepAtShift(s: string, a: nat, x: nat, sep: Separator)
    requires a <= |s| && SepAt(s[a..], x, sep)
    ensures SepAt(s, a + x, sep)
  {
    if sep.Text? {
      assert s[a..][x..x + |sep.pattern|] == s[a + x..a + x + |sep.pattern|];
    }
  }

  /** An occurrence that ends by m is an occurrence in s[..m]. */
  lemma SepAtInPrefix(s: string, m: nat, x: nat, sep: Separator)
    requires SepAt(s, x, sep) && x + SepLen(sep) <= m <= |s|
    ensures SepAt(s[..m], x, sep)
  {
    if sep.Text? {
      assert s[..m][x..x + |sep.pattern|] == s[x..x + |sep.pattern|];
    }
  }

  /** Cutting s after its first occurrence keeps that occurrence first. */
  lemma FindInPrefix(s: string, sep: Separator, i: nat, m: nat)
    requires Find(s, sep) == Some(i) && i + SepLen(sep) <= m <= |s|
    ensures Find(s[..m], sep) == Some(i)
  {
    SepAtInPrefix(s, m, i, sep);
    var f := Find(s[..m], sep);
    if f.Some? && f.value < i {
      SepAtPrefix(s, m, f.value, sep);
    }
  }

  /** A text without separator is one piece, or none when empty. */
  lemma PiecesOfFree(t: string, sep: Separator, k: nat)
    requires Free(t, sep)
    ensures Pieces(t, sep, 0, k) == if t == "" then [] else [t]
  {
  }

  /** A remainder reached after a leading separator. */
  lemma RemainderSkip(s: string, sep: Separator, k: nat, m: nat, m': nat, front: seq<string>, last: string)
    requires Find(s, sep) == Some(0) && m == m' + SepLen(sep)
    requires RemainderAt(s[SepLen(sep)..], sep, k, front, last, m')
    ensures RemainderAt(s, sep, k, front, last, m)
  {
    var L := SepLen(sep);
    var u := s[..m];
    SepAtShift(s, L, m', sep);
    DropDrop(s, L, m' + L);
    FindInPrefix(s, sep, 0, m);
    PiecesSkip(u, sep, 0, k);
    assert u[L..] == s[L..][..m'];
  }

  /** A remainder right after the first separator, which ends the first
      piece. */
  lemma RemainderFirst(s: string, sep: Separator, k: nat, i: nat, m: nat, last: string)
    requires Find(s, sep) == Some(i) && i > 0 && m == i && last == s[i + SepLen(sep)..]
    ensures RemainderAt(s, sep, k, [s[..i]], last, m)
  {
    FindPrefixFree(s, sep, i);
    PiecesOfFree(s[..i], sep, k);
  }

  /** A remainder reached after a first piece s[..i]. */
  lemma RemainderCons(s: string, sep: Separator, k: nat, i: nat, m: nat, m': nat, front: seq<string>, last: string)
    requires Find(s, sep) == Some(i) && i > 0 && m == i + SepLen(sep) + m'
    requires RemainderAt(s[i + SepLen(sep)..], sep, k + 1, front, last, m')
    ensures RemainderAt(s, sep, k, [s[..i]] + front, last, m)
  {
    var L := SepLen(sep);
    SepAtShift(s, i + L, m', sep);
    DropDrop(s, i + L, m' + L);
    PiecesBeforeCons(s, sep, k, i, m');
  }

  /** The text before a later occurrence: its first piece, then the pieces
      of what follows the first separator. */
  lemma PiecesBeforeCons(s: string, sep: Separator, k: nat, i: nat, m': nat)
    requires Find(s, sep) == Some(i) && i > 0 && i + SepLen(sep) + m' <= |s|
    ensures Pieces(s[..i + SepLen(sep) + m'], sep, 0, k)
         == [s[..i]] + Pieces(s[i + SepLen(sep)..][..m'], sep, 0, k + 1)
  {
    var L := SepLen(sep);
    var u := s[..i + L + m'];
    FindInPrefix(s, sep, i, i + L + m');
    PiecesCons(u, sep, 0, k, i);
    assert u[..i] == s[..i];
    assert u[i + L..] == s[i + L..][..m'];
  }

  /** A limit larger than the unlimited piece count plus one changes
      nothing. */
  lemma {:induction false} LargeLimitPieces(s: string, sep: Separator, limit: nat, k: nat)
    requires limit > k + |Pieces(s, sep, 0, k)| + 1
    ensures Pieces(s, sep, limit, k) == Pieces(s, sep, 0, k)
    decreases |s|
  {
    match Find(s, sep)
    case None =>
    case Some(i) =>
      LargeLimitPieces(s[i + SepLen(sep)..], sep, limit, if i == 0 then k else k + 1);
  }

  /** `split_at`: the non-empty pieces between occurrences of `sep`, at
      most `limit` of them when `limit` is positive. */
  function SplitAt(s: string, sep: string, limit: nat := 0): (r: seq<string>)
    ensures limit > 0 ==> |r| <= limit
    ensures limit == 0 ==> r == NonEmpty(SplitExactAt(s, sep))
  {
    if limit > 0 then PiecesBound(s, Text(sep), limit, 0); Pieces(s, Text(sep), limit, 0)
    else UnlimitedPieces(s, Text(sep), 0); Pieces(s, Text(sep), limit, 0)
  }

  /** `split_at_first_of`: the non-empty pieces between characters of
      `seps`, at most `limit` of them when `limit` is positive. */
  function SplitAtFirstOf(s: string, seps: set<char>, limit: nat := 0): (r: seq<string>)
    ensures limit > 0 ==> |r| <= limit
    ensures limit == 0 ==> r == NonEmpty(SplitExactAtFirstOf(s, seps))
  {
    if limit > 0 then PiecesBound(s, AnyOf(seps), limit, 0); Pieces(s, AnyOf(seps), limit, 0)
    else UnlimitedPieces(s, AnyOf(seps), 0); Pieces(s, AnyOf(seps), limit, 0)
  }

  /** `split`: `split_at_first_of` at white space. */
  function Split(s: string, limit: nat := 0): (r: seq<string>)
    ensures limit > 0 ==> |r| <= limit
    ensures limit == 0 ==> r == NonEmpty(SplitExact(s))
  {
    SplitAtFirstOf(s, WhiteSpace, limit)
  }
}

=== FILE: Wrappers.dfy ===
/** Option and Result values used by every module of the model. */
module Wrappers {

  datatype Option<+T> = None | Some(value: T)

  datatype Result<+R, +E> = Success(value: R) | Failure(error: E)
}

=== FILE: XmlNames.dfy ===
/** XML non-colonised names (NCName): `isNCName` tells whether a string is
    one, `create_NCName` makes one out of any string by dropping what
    cannot start a name, then dropping the characters a name cannot hold,
    except blanks, which become '_'. Letters are the ASCII letters. */
module XmlNames {

  predicate Letter(c: char)
  {
    'a' <= c <= 'z' || 'A' <= c <= 'Z'
  }

  predicate Digit(c: char)
  {
    '0' <= c <= '9'
  }

  /** A character that may start a name. */
  predicate NameStart(c: char)
  {
    Letter(c) || c == '_'
  }

  /** A character that may appear in a name. */
  predicate NameChar(c: char)
  {
    NameStart(c) || Digit(c) || c == '-' || c == '.'
  }

  /** `isNCName`: a non-empty string that starts with a letter or '_' and
      holds only name characters. */
  predicate IsNCName(s: string)
  {
    s != [] && NameStart(s[0]) && forall k :: 0 <= k < |s| ==> NameChar(s[k])
  }

  /** The string from its first character that may start a name. */
  function FromStart(s: string): (r: string)
    ensures |r| <= |s| && r == s[|s| - |r|..]
    ensures r != [] ==> NameStart(r[0])
    ensures r == [] <==> forall k :: 0 <= k < |s| ==> !NameStart(s[k])
    ensures forall k :: 0 <= k < |s| - |r| ==> !NameStart(s[k])
  {
    if s == [] || NameStart(s[0]) then s else FromStart(s[1..])
  }

  /** The name characters of s, with each blank turned into '_': one
      character at a time as stated here, and CleanAppend puts the
      characters together. */
  function Clean(s: string): (r: string)
    ensures |r| <= |s|
    ensures forall k :: 0 <= k < |r| ==> NameChar(r[k])
    ensures |s| == 1 ==> r == if s[0] == ' ' then "_" else if NameChar(s[0]) then s else ""
  {
    if s == [] then []
    else (if s[0] == ' ' then "_" else if NameChar(s[0]) then [s[0]] else []) + Clean(s[1..])
  }

  /** `create_NCName`: the first character that may start a name, followed
      by the cleaned rest of the input (see CreateAt). */
  function CreateNCName(s: string): (r: string)
    ensures r == "" || IsNCName(r)
    ensures r == "" <==> forall k :: 0 <= k < |s| ==> !NameStart(s[k])
    ensures r != "" ==> r[0] == FromStart(s)[0]
  {
    var t := FromStart(s);
    if t == [] then []
    else
      var c := Clean(t[1..]);
      NameOf(t[0], c);
      [t[0]] + c
  }

  lemma NameOf(x: char, c: string)
    requires NameStart(x) && forall k :: 0 <= k < |c| ==> NameChar(c[k])
    ensures IsNCName([x] + c)
  {
    assert forall k :: 0 <= k < |c| ==> ([x] + c)[k + 1] == c[k];
  }

  /** Cleaning works character by character, so with the one-character
      case of Clean's contract it fixes Clean on every input. */
  lemma {:induction false} CleanAppend(a: string, b: string)
    ensures Clean(a + b) == Clean(a) + Clean(b)
  {
    if a == [] {
      assert a + b == b;
    } else {
      assert (a + b)[0] == a[0];
      assert (a + b)[1..] == a[1..] + b;
      CleanAppend(a[1..], b);
    }
  }

  /** The name made from s is its first letter or '_', at position i,
      followed by the cleaned text after it. */
  lemma CreateAt(s: string, i: nat)
    requires i < |s| && NameStart(s[i])
    requires forall k :: 0 <= k < i ==> !NameStart(s[k])
    ensures CreateNCName(s) == [s[i]] + Clean(s[i + 1..])
  {
    assert FromStart(s)[1..] == s[i + 1..];
  }

  /** Characters that cannot start a name, in front of the input, do not
      change the name made from it. */
  lemma SkipLead(p: string, s: string)
    requires forall k :: 0 <= k < |p| ==> !NameStart(p[k])
    ensures CreateNCName(p + s) == CreateNCName(s)
  {
    var t := FromStart(s);
    var i := |s| - |t|;
    NoStartBefore(p, s, i);
    if t == [] {
      assert |p + s| == |p| + i;
      assert CreateNCName(p + s) == [];
    } else {
      assert s[i] == t[0];
      CreateAt(s, i);
      CreateAtShift(p, s, i, p + s);
    }
  }

  lemma CreateAtShift(p: string, s: string, i: nat, u: string)
    requires u == p + s && i < |s| && NameStart(s[i])
    requires forall k :: 0 <= k < |p| + i ==> !NameStart(u[k])
    ensures CreateNCName(u) == [s[i]] + Clean(s[i + 1..])
  {
    assert u[|p| + i] == s[i];
    CreateAt(u, |p| + i);
    assert u[|p| + i + 1..] == s[i + 1..];
  }

  lemma NoStartBefore(p: string, s: string, n: nat)
    requires n <= |s|
    requires forall k :: 0 <= k < |p| ==> !NameStart(p[k])
    requires forall k :: 0 <= k < n ==> !NameStart(s[k])
    ensures forall k :: 0 <= k < |p| + n ==> !NameStart((p + s)[k])
  {
    forall k | 0 <= k < |p| + n
      ensures !NameStart((p + s)[k])
    {
      if k >= |p| {
        assert (p + s)[k] == s[k - |p|];
      }
    }
  }

  /** After the start of the name, a character that is neither a name
      character nor a blank is dropped. */
  lemma DropInside(x: char, a: string, c: char, b: string)
    requires NameStart(x) && c != ' ' && !NameChar(c)
    requires forall k :: 0 <= k < |a| ==> NameChar(a[k])
    ensures CreateNCName([x] + a + [c] + b) == CreateNCName([x] + a + b)
  {
    CreateAt([x] + a + [c] + b, 0);
    CreateAt([x] + a + b, 0);
    assert ([x] + a + [c] + b)[1..] == a + [c] + b;
    assert ([x] + a + b)[1..] == a + b;
    CleanDrop(a, c, b);
  }

  lemma CleanDrop(a: string, c: char, b: string)
    requires c != ' ' && !NameChar(c)
    requires forall k :: 0 <= k < |a| ==> NameChar(a[k])
    ensures Clean(a + [c] + b) == Clean(a + b)
  {
    CleanSkip(a, c, b);
    CleanFront(a, b);
  }

  /** After the start of the name, a blank counts as '_'. */
  lemma BlankInside(x: char, a: string, b: string)
    requires NameStart(x)
    requires forall k :: 0 <= k < |a| ==> NameChar(a[k])
    ensures CreateNCName([x] + a + [' '] + b) == CreateNCName([x] + a + "_" + b)
  {
    CreateAt([x] + a + [' '] + b, 0);
    CreateAt([x] + a + "_" + b, 0);
    assert ([x] + a + [' '] + b)[1..] == a + [' '] + b;
    assert ([x] + a + "_" + b)[1..] == a + ['_'] + b;
    CleanBlank(a, b);
  }

  lemma CleanBlank(a: string, b: string)
    requires forall k :: 0 <= k < |a| ==> NameChar(a[k])
    ensures Clean(a + [' '] + b) == Clean(a + ['_'] + b)
  {
    CleanSkip(a, ' ', b);
    CleanSkip(a, '_', b);
  }

  /** The library's own checks of `isNCName`. */
  lemma IsNCNameExamples()
    ensures !IsNCName("123") && IsNCName("_123")
  {
    assert !NameStart('1');
    NameExample("_123");
  }

  lemma NameExample(s: string)
    requires s != [] && NameStart(s[0]) && forall k :: 0 <= k < |s| ==> NameChar(s[k])
    ensures IsNCName(s) && CreateNCName(s) == s
  {
    NCNameKept(s);
  }

  /** Name characters in front pass through unchanged. */
  lemma CleanFront(a: string, b: string)
    requires forall k :: 0 <= k < |a| ==> NameChar(a[k])
    ensures Clean(a + b) == a + Clean(b)
  {
    CleanAppend(a, b);
    CleanKeeps(a);
  }

  lemma CleanSkip(a: string, c: char, b: string)
    requires forall k :: 0 <= k < |a| ==> NameChar(a[k])
    ensures Clean(a + [c] + b) == a + Clean([c]) + Clean(b)
  {
    assert a + [c] + b == a + ([c] + b);
    CleanFront(a, [c] + b);
    CleanAppend([c], b);
  }

  /** Clean leaves a string of name characters as it is. */
  lemma {:induction false} CleanKeeps(s: string)
    requires forall k :: 0 <= k < |s| ==> NameChar(s[k])
    ensures Clean(s) == s
  {
    if s != [] {
      assert NameChar(s[0]) && s[0] != ' ';
      CleanKeeps(s[1..]);
    }
  }

  /** A name is left as it is. */
  lemma NCNameKept(s: string)
    requires IsNCName(s)
    ensures CreateNCName(s) == s
  {
    CleanKeeps(s[1..]);
  }

  /** Making a name twice is making it once. */
  lemma CreateIdempotent(s: string)
    ensures CreateNCName(CreateNCName(s)) == CreateNCName(s)
  {
    if CreateNCName(s) != "" {
      NCNameKept(CreateNCName(s));
    }
  }
}
